=== FILE: README.md ===
# Nihongo Next blog and sign-in core, in Dafny

This project models the logic behind the Nihongo Next site: its blog API, its account API and the pages that use them.

Server side:
- the blog content store: listing with a category filter and a search filter, lookup by slug, adding a comment, liking a comment;
- the credential store: register and login;
- the bearer-token gates `requireAuth`, `requireAdmin` and `optionalAuth`.

Client side:
- the blog list page's filter and its featured/rest split;
- the admin post editor: change handler, loading a post, submit validation and payload, tag parsing, the preview;
- the HTTP client's token header and retry policy;
- the testimonials carousel;
- the article page's local comment box and slug fallback;
- the sign-up, login and contact forms;
- the home page's three-post blog teaser.

Every operation is a pure function, with three kinds of substitution:
- A JSON file read and write becomes "store in, store out".
- Password hashing, password checking, token signing and token verification are function-typed parameters.
- Clock-derived ids and timestamps are parameters.

On the client, each network call is replaced by its answer.

Modules follow the source files:

| module | file |
|---|---|
| `PostRoutes` | backend/routes/posts.js |
| `AuthRoutes` | backend/routes/auth.js |
| `AuthMiddleware` | backend/middleware/auth.js |
| `BlogList` | BlogListPage.jsx |
| `PostEditor` | AdminPostEditor.jsx |
| `ApiClient` | lib/api.js |
| `Testimonials` | TestimonialsSection.jsx |
| `ArticlePage` | BlogPostPage.jsx |
| `SignUpPage` | SignUpPage.jsx |
| `LoginPage` | LoginPage.jsx |
| `Contact` | ContactSection.jsx |
| `BlogSection` | BlogSection.jsx |

Shared helper modules:
- `JsValues`: optional fields and JavaScript truthiness.
- `JsString`: `trim`, `toLowerCase`, `includes`, `startsWith`, `split`, `join` and UTF-16 `length`.
- `Seqs`: `filter`, `findIndex` and counting.
- `Http`: status-tagged replies.
- `Bearer`: token claims and the `Bearer ` header.
- `FormErrors`: how the sign-up and login pages report a failed call.

## Model

| member | source | states |
|---|---|---|
| PostRoutes.SummarizeAll | backend/routes/posts.js:44 | each listing entry is its post without comments, and `commentCount` is the post's number of comments |
| PostRoutes.ListPosts | backend/routes/posts.js:31-45 | the listing holds exactly the posts that pass both filters. The category filter applies only when the category is present, non-empty and not "all", and compares exactly. The search filter applies only for a non-empty query and matches the lower-cased title or excerpt. With no filters, every post is listed |
| PostRoutes.UnfilteredListingIsEveryPost | backend/routes/posts.js:34-44 | with neither filter, the listing is the whole store's summaries in store order |
| PostRoutes.ListPostsAppend | backend/routes/posts.js:34-44 | listing distributes over concatenation of stores, so the listing is an order-preserving subsequence |
| PostRoutes.SlugIndex | backend/routes/posts.js:63 | the position of the first post with the slug, or -1 exactly when no post has it |
| PostRoutes.GetPost | backend/routes/posts.js:48-53 | a 200 reply with the first post whose slug matches; otherwise 404 "Post not found." |
| PostRoutes.OptionalAuth | backend/routes/posts.js:18-28 | a user is attached exactly when the header starts with "Bearer " and the token after those 7 characters verifies; it never rejects |
| PostRoutes.AddComment | backend/routes/posts.js:56-77 | missing or blank text gives 400 before the slug is looked up; an unknown slug gives 404; neither changes the store. Success is 201: exactly one comment appended to the first matching post, with trimmed text and likes 0, and no other post changed. The name comes from the token, else the body name, else "Anonymous" |
| PostRoutes.CommentTokenNeverRejects | backend/routes/posts.js:18-28 | whatever the token, the comment route gives the same status and, on error, the same result; on success it stores the same text |
| PostRoutes.CommentRequest | backend/routes/posts.js:56 | the comment route (optionalAuth, then the handler) only ever answers 201, 400 or 404; with no usable token it is the handler for an anonymous caller, and a posted comment is named by the body name, else "Anonymous" |
| PostRoutes.CommentIndex | backend/routes/posts.js:85 | the position of the first comment with the id, or -1 exactly when none has it |
| PostRoutes.LikeComment | backend/routes/posts.js:80-91 | an unknown slug or comment id gives 404 with the store unchanged. It replies 200 exactly when both are found, with old likes + 1, where a missing count is 0, and only that comment's count changes |
| PostRoutes.LikeKeepsPositions | backend/routes/posts.js:82-88 | after a like, the same slug and comment id find the same post and comment |
| PostRoutes.LikeTwiceAddsTwo | backend/routes/posts.js:88 | two likes of the same comment add exactly 2 |
| AuthRoutes.EmailIndex | backend/routes/auth.js:57 | the first user whose email equals the given one exactly, or -1 exactly when the email is not taken |
| AuthRoutes.SessionFor | backend/routes/auth.js:44-45 | the reply's user view is id, name and email (never the hash), and the token signs claims {id, email, name} with no role |
| AuthRoutes.Register | backend/routes/auth.js:24-46 | a missing field gives 400 and a password under 6 UTF-16 units gives 400; a taken email gives 409; none of these writes anything. Otherwise it replies 201 with the session and appends exactly one user, whose passwordHash is hash(password) |
| AuthRoutes.RegisterKeepsEmailsUnique | backend/routes/auth.js:34-42 | registration preserves email uniqueness in the users file |
| AuthRoutes.RegisterTwiceConflicts | backend/routes/auth.js:34-37 | a second registration with the same email is 409 and changes nothing |
| AuthRoutes.Login | backend/routes/auth.js:49-69 | a missing field gives 400. It succeeds, with 200 and the session, exactly when the email exists and the password checks against that user's hash; any other failure is 401 "Invalid email or password." |
| AuthRoutes.UnknownEmailLooksLikeWrongPassword | backend/routes/auth.js:58-65 | an unknown email and a wrong password get identical replies |
| AuthRoutes.RegisterThenLogin | backend/routes/auth.js:39-68 | a freshly registered account logs in with 200, gets the same user view, and its login token signs the same claims (id, email, name, no role) as its registration token |
| Bearer.TokenOf | backend/middleware/auth.js:11 | the token is the header with its first 7 characters ("Bearer ") removed |
| AuthMiddleware.RequireAuth | backend/middleware/auth.js:5-16 | a missing or non-Bearer header gives 401 "Authentication required." and a failed verification gives 401 "Invalid or expired token.". The request goes on, with the verified claims, exactly when verification succeeds |
| AuthMiddleware.RequireAdmin | backend/middleware/auth.js:18-33 | the same 401 cases as requireAuth, then 403 "Admin access required." unless the role is "ADMIN"; it goes on exactly for a verified ADMIN token |
| AuthMiddleware.AdminStricterThanAuth | backend/middleware/auth.js:5-33 | every request requireAdmin admits, requireAuth admits with the same claims; requireAdmin only adds the 403 case |
| AuthMiddleware.IssuedTokensAreNotAdmin | backend/middleware/auth.js:18-33 | a token issued by register or login passes requireAuth with the user's claims and is refused 403 by requireAdmin |
| BlogList.Filtered | frontend/src/pages/BlogListPage.jsx:102-109 | exactly the posts matching the active category ("all" matches every post) and the search (an empty query matches every post; otherwise a case-insensitive title or excerpt match) |
| BlogList.FilteredAppend | frontend/src/pages/BlogListPage.jsx:102-109 | filtering keeps the list's order |
| BlogList.ShowsEmptyMessage | frontend/src/pages/BlogListPage.jsx:212 | the empty-state message shows exactly when no post matches |
| BlogList.Featured | frontend/src/pages/BlogListPage.jsx:111 | the first featured post of the filtered list, or none exactly when no post is featured |
| BlogList.Rest | frontend/src/pages/BlogListPage.jsx:112 | exactly the non-featured posts of the filtered list |
| BlogList.RestAppend | frontend/src/pages/BlogListPage.jsx:112 | the cards of a concatenation are the cards of each part in turn, so the cards keep the filtered order and repeats |
| BlogList.RestOfOne | frontend/src/pages/BlogListPage.jsx:112 | one post becomes a card exactly when it is not featured |
| BlogList.OnlyFirstFeaturedShown | frontend/src/pages/BlogListPage.jsx:111-112 | every featured post after the first is shown nowhere, so all posts are shown exactly when at most one is featured |
| PostEditor.HandleChange | frontend/src/pages/AdminPostEditor.jsx:65-69 | only the named field changes (checked for the checkbox, value otherwise), and the error clears |
| PostEditor.ParseTags | frontend/src/pages/AdminPostEditor.jsx:104 | every tag is non-empty, trimmed and comma-free and comes from a trimmed piece; every non-blank piece gives a tag |
| PostEditor.ParseOneTag | frontend/src/pages/AdminPostEditor.jsx:104 | text without a comma gives its trimmed self as the one tag, or no tag when it is blank |
| PostEditor.ParseTagsAround | frontend/src/pages/AdminPostEditor.jsx:104 | the tags of a + "," + b are the tags of a followed by the tags of b, so parsing keeps order and repeats |
| PostEditor.TagsRoundTrip | frontend/src/pages/AdminPostEditor.jsx:55 | non-empty, trimmed, comma-free tags joined with ", " parse back to the same list |
| PostEditor.ParseTagsStable | frontend/src/pages/AdminPostEditor.jsx:104 | parsing, showing and re-parsing tags is stable |
| PostEditor.FormFromPost | frontend/src/pages/AdminPostEditor.jsx:50-57 | a missing string field becomes ""; a missing or empty category becomes "grammar", and a present one is kept; featured is true only when stored true; the tags are joined with ", " |
| PostEditor.AfterLoad | frontend/src/pages/AdminPostEditor.jsx:48-61 | a loaded post fills the form; a failed load shows "Failed to load post." and keeps the form |
| PostEditor.MayEdit | frontend/src/pages/AdminPostEditor.jsx:41-45 | the editor stays open exactly for a stored user whose role is "ADMIN" |
| PostEditor.SignedInUsersCannotEdit | frontend/src/pages/AdminPostEditor.jsx:42 | the user record a sign-in stores has no role, so it never opens the editor |
| PostEditor.Submit | frontend/src/pages/AdminPostEditor.jsx:85-115 | a missing title, excerpt or category is rejected first, then missing content; a rejection makes no save call. Otherwise the payload copies the fields, parses the tags, and sends image null for "". Update is used exactly when a slug is present |
| PostEditor.LoadThenSaveUnchanged | frontend/src/pages/AdminPostEditor.jsx:50-107 | loading a complete post and saving it untouched sends the same post to update |
| PostEditor.SaveErrorText | frontend/src/pages/AdminPostEditor.jsx:117 | a non-empty server error is shown as sent; otherwise the text is "Failed to save post." |
| PostEditor.Classify | frontend/src/pages/AdminPostEditor.jsx:205-210 | each line is h3, h2, h1, list item, break or paragraph exactly when it has that prefix or is blank, and prefix plus text rebuilds the line |
| PostEditor.Preview | frontend/src/pages/AdminPostEditor.jsx:204-211 | one block per line (number of newlines + 1), each the classification of its line |
| ApiClient.AttachToken | frontend/src/lib/api.js:12-18 | with a stored token, Authorization is "Bearer " + token and nothing else changes; otherwise the config is unchanged |
| ApiClient.AttachedTokenParsesBack | frontend/src/lib/api.js:15 | the header sent is one the server's bearer parsing accepts, giving back the stored token |
| ApiClient.OnError | frontend/src/lib/api.js:21-38 | it retries exactly a GET with under 2 retries that got no response or a status of 500 or more. A retry raises the count by 1 and waits 3000 ms the first time, 5000 ms after that; anything else is rejected with the original error |
| ApiClient.Run | frontend/src/lib/api.js:21-38 | a request runs at most 3 attempts, and a non-GET exactly one; the delays are 3000 then 5000; every attempt before the last failed in a retryable way, and a GET stops on a retryable failure only once 2 retries are used |
| ApiClient.FreshGetRetries | frontend/src/lib/api.js:26-35 | a fresh GET is attempted at most 3 times, waiting 3 s then 5 s, and 3 times exactly when the first two attempts both failed retryably |
| Testimonials.Next | frontend/src/components/TestimonialsSection.jsx:58-61 | direction 1; an in-range index moves to the next entry, wrapping from the last to 0 |
| Testimonials.Prev | frontend/src/components/TestimonialsSection.jsx:63-66 | direction -1; an in-range index moves to the previous entry, wrapping from 0 to the last |
| Testimonials.StepsUndo | frontend/src/components/TestimonialsSection.jsx:58-66 | prev after next, and next after prev, return to the original index |
| Testimonials.NextCycles | frontend/src/components/TestimonialsSection.jsx:60 | n steps forward return to the starting index |
| Testimonials.Forward | frontend/src/components/TestimonialsSection.jsx:51-56 | k ticks of the auto-rotate timer (k presses of next) keep an in-range index in range, and after one or more the direction is 1 |
| Testimonials.ForwardIsSlot | frontend/src/components/TestimonialsSection.jsx:60 | up to a full turn, k steps forward land on (start + k) mod n |
| Testimonials.DotClick | frontend/src/components/TestimonialsSection.jsx:229-232 | the index becomes the dot; direction is 1 exactly when the dot is past the current index, else -1 |
| Testimonials.NeighbourDotIsArrow | frontend/src/components/TestimonialsSection.jsx:229-232 | clicking the adjacent dot equals the arrow button, away from the wrap |
| Testimonials.VisibleTestimonials | frontend/src/components/TestimonialsSection.jsx:84-90 | exactly 3 entries, entry k being testimonials[(current + k) mod n] |
| Testimonials.WindowSlides | frontend/src/components/TestimonialsSection.jsx:84-90 | with at least 3 testimonials, the window shows 3 different entries, and a step forward slides it by one |
| ArticlePage.HandleComment | frontend/src/pages/BlogPostPage.jsx:157-164 | blank input changes nothing. Otherwise exactly one comment is appended after the untouched ones, with id = previous length + 2, name "You", initials "YO", time "Just now", likes 0 and the untrimmed text; the input is cleared |
| ArticlePage.Apply | frontend/src/pages/BlogPostPage.jsx:277 | typing replaces the box's text and leaves the comments; pressing posts exactly what HandleComment posts: at most one comment after the untouched ones, with the box cleared unless nothing happened |
| ArticlePage.Replay | frontend/src/pages/BlogPostPage.jsx:277-281 | after any actions, the earlier comments are still first, and at most one comment per action was added |
| ArticlePage.ReplayKeepsNumbering | frontend/src/pages/BlogPostPage.jsx:157-164 | any sequence of typing and posting keeps comment i (i >= 1) numbered i + 2 after the seeded comment 1 |
| ArticlePage.SeededIdsStayDistinct | frontend/src/pages/BlogPostPage.jsx:155-163 | starting from the seeded comment with id 1, ids stay pairwise distinct under any sequence of posts |
| ArticlePage.SecondPressAddsNothing | frontend/src/pages/BlogPostPage.jsx:157-164 | posting twice without typing adds one comment, because the box was cleared |
| ArticlePage.ArticleFor | frontend/src/pages/BlogPostPage.jsx:153 | the article for a known slug; any other slug gets "mastering-japanese-particles" |
| ArticlePage.EverySlugShowsTheOneArticle | frontend/src/pages/BlogPostPage.jsx:8-23 | with the single built-in article, every slug shows it |
| FormErrors.ErrorText | frontend/src/pages/SignUpPage.jsx:35 | the server's error string, else the error message, else the fallback |
| FormErrors.ServerErrorShown | frontend/src/pages/LoginPage.jsx:31 | a server error reply is shown word for word |
| FormErrors.AfterCall | frontend/src/pages/SignUpPage.jsx:28-38 | an accepted call signs in with the server's session; a refused one shows the error text |
| SignUpPage.HandleChange | frontend/src/pages/SignUpPage.jsx:13-16 | only the named field changes, and the error clears |
| SignUpPage.Check | frontend/src/pages/SignUpPage.jsx:20-27 | any empty field gives "All fields are required."; after that, a password under 6 UTF-16 units gives the length error |
| SignUpPage.HandleSubmit | frontend/src/pages/SignUpPage.jsx:18-39 | no call is made exactly when a field is empty or the password is shorter than six UTF-16 units, with "All fields are required." or "Password must be at least 6 characters."; a refused call shows the server error, else the client message, else "Registration failed"; an accepted one keeps the session sent |
| SignUpPage.ChecksMatchServer | frontend/src/pages/SignUpPage.jsx:20-27 | a form the page sends never gets a 400 from register, only success or 409. A form it holds back would get a 400, with the same message for a short password |
| LoginPage.HandleChange | frontend/src/pages/LoginPage.jsx:13-16 | only the named field changes, and the error clears |
| LoginPage.Check | frontend/src/pages/LoginPage.jsx:20-23 | an empty email or password gives "Email and password are required." |
| LoginPage.HandleSubmit | frontend/src/pages/LoginPage.jsx:18-35 | no call is made exactly when the email or password is empty, with "Email and password are required."; a refused call shows the server error, else the client message, else "Login failed"; sign-in happens exactly when both are filled and the call is accepted, and keeps the session the server sent |
| LoginPage.CheckMatchesServer | frontend/src/pages/LoginPage.jsx:20-23 | the page holds back exactly the forms login answers with 400, showing the same message; the forms it sends get 200 or 401 |
| Contact.HandleChange | frontend/src/components/ContactSection.jsx:29-35 | only the named input changes |
| Contact.HandleCourseChange | frontend/src/components/ContactSection.jsx:37-42 | only the course changes |
| Contact.HandleSubmit | frontend/src/components/ContactSection.jsx:44-96 | an empty field gives the error toast and no send, with the state unchanged. Otherwise the four fields are sent. On success the fields are cleared, isSubmitted is set and the toast reads "Request submitted successfully! We will contact you soon."; on failure the form is kept and the toast reads "Failed to submit request. Please try again or contact us directly.". isSubmitting is false either way |
| Contact.NoticeExpires | frontend/src/components/ContactSection.jsx:86-88 | the thank-you notice goes away and nothing else changes |
| Contact.ResubmitAfterSend | frontend/src/components/ContactSection.jsx:74-83 | after a successful send, pressing submit again sends nothing; after a failed one, the same request goes again |
| BlogSection.AfterFetch | frontend/src/components/BlogSection.jsx:27-39 | on success the posts are the first min(3, n) fetched posts in order; on failure they stay; loading ends either way |
| BlogSection.HiddenExactlyWhenNothingFetched | frontend/src/components/BlogSection.jsx:42 | the section shows while loading, and is hidden afterwards exactly when the fetch failed or returned nothing |
| BlogSection.ShowsFirstThreePosts | frontend/src/components/BlogSection.jsx:30-31 | against the unfiltered listing endpoint, the teaser shows the store's first three posts |
| BlogSection.BadgeColors | frontend/src/components/BlogSection.jsx:102 | the table colour for a known category, else "bg-muted text-muted-foreground" |
| BlogSection.FallbackExactlyForUnknown | frontend/src/components/BlogSection.jsx:11-16 | the fallback colours mark exactly the categories other than grammar, culture, vocabulary and kanji |
| JsString.Trim | backend/routes/posts.js:58 | the result is a slice of the input with only whitespace cut from either side, has no surrounding whitespace, is empty exactly when the input is all whitespace, and leaves a trimmed string alone |
| JsString.Split | frontend/src/pages/AdminPostEditor.jsx:104 | at least one piece, none containing the separator |
| JsString.JoinSplit | frontend/src/pages/AdminPostEditor.jsx:104 | joining the pieces of a split with the separator gives back the string |
| JsString.SplitJoin | frontend/src/pages/AdminPostEditor.jsx:55 | splitting a join of separator-free pieces gives back the pieces |
| JsString.SplitAround | frontend/src/pages/AdminPostEditor.jsx:104 | a separator between two strings gives the pieces of the first followed by those of the second |
| JsString.SplitCount | frontend/src/pages/AdminPostEditor.jsx:204 | a split has one more piece than the string has separators |
| JsString.ToLower | frontend/src/pages/BlogListPage.jsx:106-107 | same length; no ASCII capital remains; capitals move to their lower-case letter, and every other character is unchanged |
| JsString.Utf16Length | backend/routes/auth.js:30 | between one and two units per character, and one per character exactly when no character lies above U+FFFF |
| JsString.Utf16LengthOfOne | backend/routes/auth.js:30 | one character counts one unit, or two above U+FFFF |
| JsString.Utf16LengthAppend | backend/routes/auth.js:30 | the length of a concatenation is the sum of the lengths, so with Utf16LengthOfOne every string's length is fixed |

## Left out

- File I/O: reading and writing posts.json and users.json, including the empty-list fallback when users.json cannot be read. Stores are passed in and returned.
- bcrypt and JSON Web Token internals, including expiry: hashing, checking, signing and verifying are parameters. A signer maps claims to a token. It does not see the clock, so the issue and expiry times `jwt.sign` stamps into each token are not modelled. That is why AuthRoutes.RegisterThenLogin speaks of the claims each token signs, with a separate signer for the later login, and not of equal tokens. The `JWT_SECRET` handling and its hard-coded fallback are configuration.
- `Date.now()` ids and ISO timestamps on comments and users: they are parameters, so the model does not show two requests in the same millisecond sharing an id.
- Concurrent requests: read-modify-write races on the JSON files, such as a lost like, are not modelled.
- A non-string `text` in a comment body crashes the handler with a 500. The model takes the text as an optional string.
- PostRoutes.AddComment: a truthy non-string `name` in the body is stored as the comment's name; the model takes the name as an optional string. A stored post lacking its `comments` array makes the listing, comment and like routes fail with a 500; the model's posts always carry a comment list.
- AuthRoutes.Register, AuthRoutes.Login: fields are optional strings, so non-string JSON values are not modelled. A number such as 123456 as the password has no `.length`, so it passes the length check of backend/routes/auth.js:30. bcrypt then rejects it at backend/routes/auth.js:39 or :62, and the route does not catch that.
- PostRoutes.LikeComment takes the comment id as an integer. `Number(...)` parsing of the URL segment, and the non-integer ids it can produce, are not modelled.
- Query parameters given more than once (arrays) are not modelled; category and search are optional strings.
- Property-name lookups that hit the object prototype (a slug or category such as "constructor") are not modelled: the article and colour tables are maps.
- JsString.ToLower lower-cases ASCII letters only. Other letters are unchanged, unlike `toLowerCase`.
- JsString.Utf16Length counts code points above U+FFFF as two units. Lone surrogates cannot occur in a Dafny string.
- ApiClient.Run represents "retry count unset" as 0, which the source treats the same way. The waits are recorded as delays, not performed.
- Timers: each tick of the carousel's five-second auto-rotate is a next step, so Testimonials.Forward counts them; the timing itself is not modelled. The contact notice's five-second reset is modelled as Contact.NoticeExpires.
- Testimonials.Next, Testimonials.Prev: stated for any positive count; the source's list always has five entries.
- Post create, update and delete, slug derivation, read-time calculation, Google login, rate limiting and image upload have no implementing logic in the modelled files. They are not modelled.
- The mail service call, toast rendering, `localStorage`, navigation, animations and styling.
- Database seed and cleanup scripts.

=== FILE: api_client.dfy ===
/**
 The front end's HTTP client: a request interceptor that attaches the stored
 session token, and a response interceptor that retries failed GET requests
 (no response, or a server error) at most twice, after 3 and then 5 seconds.
 The actual waiting, the stored token's source and the network are outside
 the model: the token is a parameter and the server's answers are a function
 of the attempt number.
 */
module ApiClient {
  import opened JsValues
  import Bearer

  /** The parts of an axios request config the interceptors touch: `verb` is `config.method`,
      `retryCount` is `config._retryCount` with 0 for unset. */
  datatype RequestConfig = RequestConfig(verb: string, url: string, headers: map<string, string>, retryCount: nat)

  const AuthorizationHeader: string := "Authorization"

  /** The request interceptor: with a stored token, send `Authorization: Bearer <token>`. */
  function AttachToken(config: RequestConfig, stored: Option<string>): (r: RequestConfig)
    ensures !Truthy(stored) ==> r == config
    ensures Truthy(stored) ==>
      && r.verb == config.verb && r.url == config.url && r.retryCount == config.retryCount
      && r.headers.Keys == config.headers.Keys + {AuthorizationHeader}
      && r.headers[AuthorizationHeader] == Bearer.Scheme + stored.value
      && forall h :: h in config.headers && h != AuthorizationHeader ==> r.headers[h] == config.headers[h]
  {
    if Truthy(stored) then
      config.(headers := config.headers[AuthorizationHeader := Bearer.Scheme + stored.value])
    else config
  }

  /** The header the client attaches is one the server's bearer parsing accepts,
      and the token the server extracts is exactly the stored one. */
  lemma AttachedTokenParsesBack(config: RequestConfig, stored: Option<string>)
    requires Truthy(stored)
    ensures var header := Some(AttachToken(config, stored).headers[AuthorizationHeader]);
      Bearer.WellFormed(header) && Bearer.TokenOf(header.value) == stored.value
  {
    var h := Bearer.Scheme + stored.value;
    assert h[..|Bearer.Scheme|] == Bearer.Scheme;
  }

  /** A rejected request: its config, and the response status if a response arrived. */
  datatype Failure = Failure(config: Option<RequestConfig>, status: Option<int>)

  /** What the response interceptor does with a failure. */
  datatype Recovery = Retry(config: RequestConfig, delayMs: nat) | Reject(error: Failure)

  const MaxRetries: nat := 2

  /** A GET request with retries left that got no response or a 5xx. */
  predicate Retryable(err: Failure) {
    && err.config.Some?
    && err.config.value.verb == "get"
    && err.config.value.retryCount < MaxRetries
    && (err.status.None? || err.status.value >= 500)
  }

  /** The response interceptor's error handler. */
  function OnError(err: Failure): (r: Recovery)
    ensures r.Reject? <==> !Retryable(err)
    ensures r.Reject? ==> r.error == err
    ensures r.Retry? ==>
      && r.config == err.config.value.(retryCount := err.config.value.retryCount + 1)
      && r.config.retryCount <= MaxRetries
      && r.delayMs == (if r.config.retryCount == 1 then 3000 else 5000)
  {
    if Retryable(err) then
      var config := err.config.value.(retryCount := err.config.value.retryCount + 1);
      Retry(config, if config.retryCount == 1 then 3000 else 5000)
    else Reject(err)
  }

  /** What the server does on one attempt. */
  datatype Answer = Success | NoResponse | ErrorStatus(code: int)

  /** One request through the interceptor: how many attempts were made, the waits
      between them, and the answer to the last one. */
  datatype Trace = Trace(attempts: nat, delays: seq<nat>, last: Answer)

  function StatusOf(a: Answer): Option<int> {
    if a.ErrorStatus? then Some(a.code) else None
  }

  predicate RetryableAnswer(a: Answer) {
    a.NoResponse? || (a.ErrorStatus? && a.code >= 500)
  }

  /** Send a request whose attempt number is `config.retryCount`; `server(k)` answers attempt `k`. */
  function Run(config: RequestConfig, server: nat -> Answer): (t: Trace)
    ensures t.attempts >= 1 && |t.delays| == t.attempts - 1
    ensures t.attempts <= (if config.retryCount < MaxRetries then MaxRetries + 1 - config.retryCount else 1)
    ensures config.verb != "get" ==> t.attempts == 1
    ensures forall k :: 0 <= k < |t.delays| ==> t.delays[k] == (if config.retryCount + k == 0 then 3000 else 5000)
    ensures t.last == server(config.retryCount + t.attempts - 1)
    ensures forall j: nat :: config.retryCount <= j < config.retryCount + t.attempts - 1 ==> RetryableAnswer(server(j))
    ensures config.verb == "get" && RetryableAnswer(t.last) ==> config.retryCount + t.attempts - 1 >= MaxRetries
    decreases if config.retryCount <= MaxRetries then MaxRetries - config.retryCount else 0
  {
    var answer := server(config.retryCount);
    if answer.Success? then Trace(1, [], answer)
    else
      match OnError(Failure(Some(config), StatusOf(answer)))
      case Reject(_) => Trace(1, [], answer)
      case Retry(next, delay) =>
        assert RetryableAnswer(answer);
        var rest := Run(next, server);
        Trace(rest.attempts + 1, [delay] + rest.delays, rest.last)
  }

  /** A fresh GET request is attempted at most three times, waiting 3 s and then 5 s, and a
      third attempt happens exactly when the first two both failed with no response or a 5xx. */
  lemma FreshGetRetries(config: RequestConfig, server: nat -> Answer)
    requires config.retryCount == 0 && config.verb == "get"
    ensures var t := Run(config, server);
      && t.attempts <= 3
      && t.delays == [3000, 5000][..t.attempts - 1]
      && (t.attempts == 3 <==> RetryableAnswer(server(0)) && RetryableAnswer(server(1)))
  {
    var t := Run(config, server);
    var c1 := config.(retryCount := 1);
    var c2 := config.(retryCount := 2);
    if RetryableAnswer(server(0)) {
      assert Run(config, server).attempts == Run(c1, server).attempts + 1;
      if RetryableAnswer(server(1)) {
        assert Run(c1, server).attempts == Run(c2, server).attempts + 1;
      } else {
        assert Run(c1, server).attempts == 1;
      }
    } else {
      assert t.attempts == 1;
    }
  }
}

=== FILE: article_page.dfy ===
/**
 The single-article page. Its comment box works on a local list only: posting
 appends a comment numbered from the list's length and clears the box; nothing
 is sent to the server. The page looks its article up by the route's slug and
 falls back to the one built-in article for any slug it does not know.
 Avatars, the reply under a comment and the related-posts strip are left out.
 */
module ArticlePage {
  import opened JsValues
  import opened JsString

  /** A comment in the page's local list (its avatar image and reply left out). */
  datatype LocalComment = LocalComment(id: int, name: string, initials: string, text: string, time: string, likes: int)

  /** The comment list and the text in the comment box. */
  datatype Thread = Thread(comments: seq<LocalComment>, input: string)

  /** The comment the page's user posts with text `text` onto a list of `n` comments. */
  function Posted(n: nat, text: string): LocalComment {
    LocalComment(n + 2, "You", "YO", text, "Just now", 0)
  }

  /** handleComment */
  function HandleComment(t: Thread): (r: Thread)
    ensures AllSpace(t.input) ==> r == t
    ensures !AllSpace(t.input) ==>
      && r.input == ""
      && |r.comments| == |t.comments| + 1
      && r.comments[..|t.comments|] == t.comments
      && r.comments[|t.comments|].text == t.input
      && r.comments[|t.comments|].id == |t.comments| + 2
      && r.comments[|t.comments|].name == "You"
      && r.comments[|t.comments|].initials == "YO"
      && r.comments[|t.comments|].time == "Just now"
      && r.comments[|t.comments|].likes == 0
  {
    if Trim(t.input) == [] then t
    else
      var after := t.comments + [Posted(|t.comments|, t.input)];
      assert after[..|t.comments|] == t.comments;
      Thread(after, "")
  }

  /** What the user can do with the comment box: type into it, or press "Post Comment". */
  datatype Action = Typed(text: string) | Pressed

  function Apply(t: Thread, a: Action): (r: Thread)
    ensures a.Typed? ==> r.comments == t.comments && r.input == a.text
    ensures a.Pressed? ==> r == HandleComment(t)
    ensures a.Pressed? ==> r.input == "" || r == t
    ensures |t.comments| <= |r.comments| <= |t.comments| + 1
    ensures r.comments[..|t.comments|] == t.comments
  {
    match a
    case Typed(text) => t.(input := text)
    case Pressed => HandleComment(t)
  }

  /** The thread after a series of actions. */
  function Replay(t: Thread, actions: seq<Action>): (r: Thread)
    ensures |t.comments| <= |r.comments| <= |t.comments| + |actions|
    ensures r.comments[..|t.comments|] == t.comments
    decreases |actions|
  {
    if actions == [] then t
    else Replay(Apply(t, actions[0]), actions[1..])
  }

  /** The numbering the page keeps: the seeded first comment is 1, and the comment
      at position `p >= 1` is numbered `p + 2`. */
  predicate WellNumbered(cs: seq<LocalComment>) {
    && |cs| >= 1
    && cs[0].id == 1
    && forall p :: 1 <= p < |cs| ==> cs[p].id == p + 2
  }

  predicate IdsDistinct(cs: seq<LocalComment>) {
    forall p, q :: 0 <= p < q < |cs| ==> cs[p].id != cs[q].id
  }

  lemma WellNumberedDistinct(cs: seq<LocalComment>)
    requires WellNumbered(cs)
    ensures IdsDistinct(cs)
  {
  }

  /** Every action keeps the numbering. */
  lemma ApplyKeepsNumbering(t: Thread, a: Action)
    requires WellNumbered(t.comments)
    ensures WellNumbered(Apply(t, a).comments)
  {
    var cs := Apply(t, a).comments;
    if cs != t.comments {
      assert cs[..|t.comments|] == t.comments && cs[|t.comments|].id == |t.comments| + 2;
      forall p | 1 <= p < |cs|
        ensures cs[p].id == p + 2
      {
        if p < |t.comments| {
          assert cs[p] == cs[..|t.comments|][p];
        }
      }
    }
  }

  lemma {:induction false} ReplayKeepsNumbering(t: Thread, actions: seq<Action>)
    requires WellNumbered(t.comments)
    ensures WellNumbered(Replay(t, actions).comments)
    decreases |actions|
  {
    if actions != [] {
      ApplyKeepsNumbering(t, actions[0]);
      ReplayKeepsNumbering(Apply(t, actions[0]), actions[1..]);
    }
  }

  /** From the seeded list of one comment numbered 1, comment ids stay pairwise
      distinct whatever the user types and posts. */
  lemma SeededIdsStayDistinct(seed: LocalComment, input: string, actions: seq<Action>)
    requires seed.id == 1
    ensures IdsDistinct(Replay(Thread([seed], input), actions).comments)
  {
    ReplayKeepsNumbering(Thread([seed], input), actions);
    WellNumberedDistinct(Replay(Thread([seed], input), actions).comments);
  }

  /** Posting twice without typing in between adds one comment only: the box was cleared. */
  lemma SecondPressAddsNothing(t: Thread)
    ensures HandleComment(HandleComment(t)) == HandleComment(t)
  {
  }

  /** The article every unknown slug shows. */
  const FallbackSlug: string := "mastering-japanese-particles"

  /** `POSTS[slug] || POSTS[FallbackSlug]`: the article for the route's slug, or the fallback article. */
  function ArticleFor<A(==)>(posts: map<string, A>, slug: Option<string>): (a: A)
    requires FallbackSlug in posts
    ensures a in posts.Values
    ensures slug.Some? && slug.value in posts ==> a == posts[slug.value]
    ensures !(slug.Some? && slug.value in posts) ==> a == posts[FallbackSlug]
  {
    if slug.Some? && slug.value in posts then posts[slug.value] else posts[FallbackSlug]
  }

  /** The page holds one article, so every slug shows it. */
  lemma EverySlugShowsTheOneArticle<A>(article: A, slug: Option<string>)
    ensures ArticleFor(map[FallbackSlug := article], slug) == article
  {
  }
}

=== FILE: auth_middleware.dfy ===
/**
 The `requireAuth` and `requireAdmin` gates. Each is a total decision on the
 Authorization header, given the token verifier: either the request goes on
 to the next handler with the verified claims attached, or exactly one error
 response is sent and the next handler is never called.
 */
module AuthMiddleware {
  import opened JsValues
  import opened JsString
  import opened Bearer
  import AuthRoutes

  datatype Decision = Next(user: Claims) | Deny(status: nat, error: string)

  const AdminRole: string := "ADMIN"

  /** The header is well-formed and its token verifies. */
  predicate Authenticated(header: Option<string>, verify: Verifier) {
    WellFormed(header) && verify(TokenOf(header.value)).Some?
  }

  /** requireAuth */
  function RequireAuth(header: Option<string>, verify: Verifier): (d: Decision)
    ensures !WellFormed(header) ==> d == Deny(401, "Authentication required.")
    ensures WellFormed(header) && !Authenticated(header, verify) ==> d == Deny(401, "Invalid or expired token.")
    ensures d.Next? <==> Authenticated(header, verify)
    ensures d.Next? ==> Scheme + TokenOf(header.value) == header.value && verify(TokenOf(header.value)) == Some(d.user)
  {
    if !WellFormed(header) then Deny(401, "Authentication required.")
    else
      match verify(TokenOf(header.value))
      case None => Deny(401, "Invalid or expired token.")
      case Some(claims) => Next(claims)
  }

  /** requireAdmin */
  function RequireAdmin(header: Option<string>, verify: Verifier): (d: Decision)
    ensures !WellFormed(header) ==> d == Deny(401, "Authentication required.")
    ensures WellFormed(header) && !Authenticated(header, verify) ==> d == Deny(401, "Invalid or expired token.")
    ensures Authenticated(header, verify) && verify(TokenOf(header.value)).value.role != Some(AdminRole) ==>
      d == Deny(403, "Admin access required.")
    ensures d.Next? <==> Authenticated(header, verify) && verify(TokenOf(header.value)).value.role == Some(AdminRole)
    ensures d.Next? ==> verify(TokenOf(header.value)) == Some(d.user) && d.user.role == Some(AdminRole)
  {
    if !WellFormed(header) then Deny(401, "Authentication required.")
    else
      match verify(TokenOf(header.value))
      case None => Deny(401, "Invalid or expired token.")
      case Some(decoded) =>
        if decoded.role != Some(AdminRole) then Deny(403, "Admin access required.")
        else Next(decoded)
  }

  /** Every request admitted by requireAdmin is admitted by requireAuth with the same claims,
      and requireAdmin refuses with requireAuth's 401 whenever requireAuth refuses. */
  lemma AdminStricterThanAuth(header: Option<string>, verify: Verifier)
    ensures RequireAdmin(header, verify).Next? ==> RequireAuth(header, verify) == RequireAdmin(header, verify)
    ensures RequireAuth(header, verify).Deny? ==> RequireAdmin(header, verify) == RequireAuth(header, verify)
    ensures RequireAdmin(header, verify).Deny? && RequireAuth(header, verify).Next? ==>
      RequireAdmin(header, verify) == Deny(403, "Admin access required.")
  {
  }

  /** With a verifier that accepts exactly what the server signed, a token issued by
      /register or /login passes requireAuth with the user's claims but is refused by
      requireAdmin: issued tokens carry no role. */
  lemma IssuedTokensAreNotAdmin(u: AuthRoutes.User, sign: Signer, verify: Verifier)
    requires forall c :: verify(sign(c)) == Some(c)
    ensures var header := Some(Scheme + AuthRoutes.SessionFor(u, sign).token);
      && RequireAuth(header, verify) == Next(AuthRoutes.ClaimsFor(u))
      && RequireAdmin(header, verify) == Deny(403, "Admin access required.")
  {
    var token := AuthRoutes.SessionFor(u, sign).token;
    var h := Scheme + token;
    assert StartsWith(h, Scheme);
    assert TokenOf(h) == token;
    assert verify(token) == Some(AuthRoutes.ClaimsFor(u));
  }
}

=== FILE: auth_routes.dfy ===
/**
 The credential store and the /register and /login handlers. The users file
 is the `users` value passed in and returned. Password hashing and checking
 (bcrypt) and token signing (JSON Web Token) are passed in as functions; the
 new user's id and creation time come from the clock and are parameters.
 */
module AuthRoutes {
  import opened JsValues
  import opened JsString
  import opened Seqs
  import opened Http
  import opened Bearer

  datatype User = User(id: int, name: string, email: string, passwordHash: string, createdAt: string)

  /** The user as sent to the client: never the password hash. */
  datatype PublicUser = PublicUser(id: int, name: string, email: string)

  /** The body of a successful register or login. */
  datatype Session = Session(token: string, user: PublicUser)

  /** The users file after a request, and the reply sent. */
  datatype Enrolment = Enrolment(users: seq<User>, reply: Reply<Session>)

  /** `bcrypt.hash(password, 10)` */
  type Hasher = string -> string

  /** `bcrypt.compare(password, hash)` */
  type Checker = (string, string) -> bool

  const MinPasswordLength: nat := 6

  /** No two stored users share an email address (compared exactly, case included). */
  predicate EmailsUnique(users: seq<User>) {
    forall i, j :: 0 <= i < j < |users| ==> users[i].email != users[j].email
  }

  predicate EmailTaken(users: seq<User>, email: string) {
    exists i :: 0 <= i < |users| && users[i].email == email
  }

  function EmailIs(email: string): User -> bool {
    (u: User) => u.email == email
  }

  /** `users.find(u => u.email === email)`, as a position. */
  function EmailIndex(users: seq<User>, email: string): (i: int)
    ensures -1 <= i < |users|
    ensures i == -1 <==> !EmailTaken(users, email)
    ensures 0 <= i ==> users[i].email == email && forall j :: 0 <= j < i ==> users[j].email != email
  {
    FirstIndex(EmailIs(email), users)
  }

  /** The token payload `{ id, email, name }`: no role. */
  function ClaimsFor(u: User): Claims {
    Claims(u.id, u.email, u.name, None)
  }

  /** `{ token, user: { id, name, email } }` */
  function SessionFor(u: User, sign: Signer): (s: Session)
    ensures s.user.id == u.id && s.user.name == u.name && s.user.email == u.email
    ensures s.token == sign(Claims(u.id, u.email, u.name, None))
  {
    Session(sign(ClaimsFor(u)), PublicUser(u.id, u.name, u.email))
  }

  /** All three registration fields are present and non-empty. */
  predicate RegistrationComplete(name: Option<string>, email: Option<string>, password: Option<string>) {
    Truthy(name) && Truthy(email) && Truthy(password)
  }

  /** POST /api/auth/register */
  function Register(
    users: seq<User>, name: Option<string>, email: Option<string>, password: Option<string>,
    hash: Hasher, sign: Signer, id: int, now: string): (r: Enrolment)
    ensures !RegistrationComplete(name, email, password) ==>
      r == Enrolment(users, Err(400, "Name, email and password are required."))
    ensures RegistrationComplete(name, email, password) && Utf16Length(password.value) < MinPasswordLength ==>
      r == Enrolment(users, Err(400, "Password must be at least 6 characters."))
    ensures (RegistrationComplete(name, email, password) && Utf16Length(password.value) >= MinPasswordLength
             && EmailTaken(users, email.value)) ==>
      r == Enrolment(users, Err(409, "An account with this email already exists."))
    ensures r.reply.Ok? <==>
      RegistrationComplete(name, email, password) && Utf16Length(password.value) >= MinPasswordLength
      && !EmailTaken(users, email.value)
    ensures r.reply.Ok? ==>
      && |r.users| == |users| + 1 && r.users[..|users|] == users
      && r.users[|users|] == User(id, name.value, email.value, hash(password.value), now)
      && r.reply.status == 201
      && r.reply.body == SessionFor(r.users[|users|], sign)
  {
    if !RegistrationComplete(name, email, password) then
      Enrolment(users, Err(400, "Name, email and password are required."))
    else if Utf16Length(password.value) < MinPasswordLength then
      Enrolment(users, Err(400, "Password must be at least 6 characters."))
    else if EmailIndex(users, email.value) != -1 then
      Enrolment(users, Err(409, "An account with this email already exists."))
    else
      var user := User(id, name.value, email.value, hash(password.value), now);
      var after := users + [user];
      assert after[..|users|] == users;
      Enrolment(after, Ok(201, SessionFor(user, sign)))
  }

  /** Registration keeps email addresses unique in the users file. */
  lemma RegisterKeepsEmailsUnique(
    users: seq<User>, name: Option<string>, email: Option<string>, password: Option<string>,
    hash: Hasher, sign: Signer, id: int, now: string)
    requires EmailsUnique(users)
    ensures EmailsUnique(Register(users, name, email, password, hash, sign, id, now).users)
  {
    var r := Register(users, name, email, password, hash, sign, id, now);
    if r.reply.Ok? {
      var after := r.users;
      forall i, j | 0 <= i < j < |after|
        ensures after[i].email != after[j].email
      {
        if j == |users| {
          assert after[i] == users[i];
        } else {
          assert after[i] == users[i] && after[j] == users[j];
        }
      }
    }
  }

  /** Registering the same email twice: the second attempt is a conflict and changes nothing. */
  lemma RegisterTwiceConflicts(
    users: seq<User>, name: Option<string>, email: Option<string>, password: Option<string>,
    name2: Option<string>, password2: Option<string>,
    hash: Hasher, sign: Signer, id: int, id2: int, now: string, now2: string)
    requires Register(users, name, email, password, hash, sign, id, now).reply.Ok?
    requires RegistrationComplete(name2, email, password2) && Utf16Length(password2.value) >= MinPasswordLength
    ensures var after := Register(users, name, email, password, hash, sign, id, now).users;
      Register(after, name2, email, password2, hash, sign, id2, now2)
        == Enrolment(after, Err(409, "An account with this email already exists."))
  {
    var after := Register(users, name, email, password, hash, sign, id, now).users;
    assert after[|users|].email == email.value;
    assert EmailTaken(after, email.value);
  }

  /** Both login fields are present and non-empty. */
  predicate CredentialsGiven(email: Option<string>, password: Option<string>) {
    Truthy(email) && Truthy(password)
  }

  /** POST /api/auth/login; the users file is only read. */
  function Login(
    users: seq<User>, email: Option<string>, password: Option<string>,
    compare: Checker, sign: Signer): (r: Reply<Session>)
    ensures !CredentialsGiven(email, password) ==> r == Err(400, "Email and password are required.")
    ensures r.Ok? <==>
      && CredentialsGiven(email, password)
      && EmailTaken(users, email.value)
      && compare(password.value, users[EmailIndex(users, email.value)].passwordHash)
    ensures r.Ok? ==> r.status == 200 && r.body == SessionFor(users[EmailIndex(users, email.value)], sign)
    ensures CredentialsGiven(email, password) && r.Err? ==> r == Err(401, "Invalid email or password.")
  {
    if !CredentialsGiven(email, password) then Err(400, "Email and password are required.")
    else
      var i := EmailIndex(users, email.value);
      if i == -1 then Err(401, "Invalid email or password.")
      else if !compare(password.value, users[i].passwordHash) then Err(401, "Invalid email or password.")
      else Ok(200, SessionFor(users[i], sign))
  }

  /** An unknown email and a wrong password get the identical reply, so accounts cannot be probed. */
  lemma UnknownEmailLooksLikeWrongPassword(
    users: seq<User>, unknown: string, known: string, password: string,
    compare: Checker, sign: Signer)
    requires unknown != "" && known != "" && password != "" && !EmailTaken(users, unknown)
    requires EmailTaken(users, known) && !compare(password, users[EmailIndex(users, known)].passwordHash)
    ensures Login(users, Some(unknown), Some(password), compare, sign)
         == Login(users, Some(known), Some(password), compare, sign)
  {
  }

  /** With a hasher whose hashes check out, a new account can log straight in. The login
      session shows the same user, and its token signs the same claims as the registration
      token. `signLater` is the signer at the time of the login: a real token also stamps
      its issue and expiry times, so the two tokens themselves may differ. */
  lemma RegisterThenLogin(
    users: seq<User>, name: Option<string>, email: Option<string>, password: Option<string>,
    hash: Hasher, compare: Checker, sign: Signer, signLater: Signer, id: int, now: string)
    requires Register(users, name, email, password, hash, sign, id, now).reply.Ok?
    requires compare(password.value, hash(password.value))
    ensures var r := Register(users, name, email, password, hash, sign, id, now);
      var l := Login(r.users, email, password, compare, signLater);
      var claims := Claims(id, email.value, name.value, None);
      && l.Ok? && l.status == 200
      && l.body.user == r.reply.body.user
      && r.reply.body.token == sign(claims)
      && l.body.token == signLater(claims)
  {
    var r := Register(users, name, email, password, hash, sign, id, now);
    assert !EmailTaken(users, email.value);
    assert forall j :: 0 <= j < |users| ==> r.users[j] == users[j];
    assert EmailIndex(r.users, email.value) == |users|;
  }
}

=== FILE: bearer.dfy ===
/**
 Session-token claims and the `Authorization: Bearer <token>` header shared by
 the backend's middleware and the comment route's optional authentication.
 Signing and verification belong to the JSON Web Token library and are passed
 in as functions.
 */
module Bearer {
  import opened JsValues
  import opened JsString

  /** The decoded payload of a session token. `role` is present only if the token carries one. */
  datatype Claims = Claims(id: int, email: string, name: string, role: Option<string>)

  /** `jwt.verify` with the server secret: the claims, or None for a malformed, forged or expired token. */
  type Verifier = string -> Option<Claims>

  /** `jwt.sign` with the server secret and a seven-day expiry. */
  type Signer = Claims -> string

  const Scheme: string := "Bearer "

  /** The header is present and starts with "Bearer ". */
  predicate WellFormed(header: Option<string>) {
    header.Some? && StartsWith(header.value, Scheme)
  }

  /** `auth.slice(7)`: the header with the scheme removed. */
  function TokenOf(header: string): (token: string)
    requires StartsWith(header, Scheme)
    ensures Scheme + token == header
  {
    header[|Scheme|..]
  }
}

=== FILE: blog_list.dfy ===
/**
 The blog list page: the category tabs and search box filter a fixed list of
 posts; the first featured post of the result is shown large and the
 non-featured ones as cards.
 */
module BlogList {
  import opened JsValues
  import opened JsString
  import opened Seqs

  /** A post of the page's built-in list. */
  datatype Card = Card(
    slug: string, title: string, excerpt: string, category: string,
    author: string, date: string, readTime: string, image: string, featured: bool)

  const AllCategories: string := "all"

  predicate CategoryMatches(active: string, p: Card) {
    active == AllCategories || p.category == active
  }

  predicate SearchMatches(query: string, p: Card) {
    query == "" || ContainsIgnoringCase(p.title, query) || ContainsIgnoringCase(p.excerpt, query)
  }

  function Matches(active: string, query: string): Card -> bool {
    (p: Card) => CategoryMatches(active, p) && SearchMatches(query, p)
  }

  /** `filtered`: the posts passing both the category and the search test. */
  function Filtered(posts: seq<Card>, active: string, query: string): (r: seq<Card>)
    ensures |r| <= |posts|
    ensures forall k :: 0 <= k < |r| ==> r[k] in posts && CategoryMatches(active, r[k]) && SearchMatches(query, r[k])
    ensures forall i :: 0 <= i < |posts| && CategoryMatches(active, posts[i]) && SearchMatches(query, posts[i]) ==>
      posts[i] in r
    ensures active == AllCategories && query == "" ==> r == posts
  {
    if active == AllCategories && query == "" then
      FilterAll(Matches(active, query), posts);
      Filter(Matches(active, query), posts)
    else
      Filter(Matches(active, query), posts)
  }

  /** Filtering a concatenation filters each part in turn: `filtered` keeps the list's order. */
  lemma FilteredAppend(a: seq<Card>, b: seq<Card>, active: string, query: string)
    ensures Filtered(a + b, active, query) == Filtered(a, active, query) + Filtered(b, active, query)
  {
    FilterAppend(Matches(active, query), a, b);
  }

  /** "No articles found" is shown exactly when no post passes both tests. */
  function ShowsEmptyMessage(posts: seq<Card>, active: string, query: string): (shown: bool)
    ensures shown <==> forall i :: 0 <= i < |posts| ==>
      !(CategoryMatches(active, posts[i]) && SearchMatches(query, posts[i]))
  {
    var r := Filtered(posts, active, query);
    assert |r| > 0 ==> r[0] in posts;
    |r| == 0
  }

  function IsFeatured(): Card -> bool {
    (p: Card) => p.featured
  }

  /** `featured`: the first featured post of `filtered`, if any. */
  function Featured(filtered: seq<Card>): (r: Option<Card>)
    ensures r.None? <==> forall i :: 0 <= i < |filtered| ==> !filtered[i].featured
    ensures r.Some? ==> r.value.featured
    ensures r.Some? ==>
      exists i :: 0 <= i < |filtered| && filtered[i] == r.value && forall j :: 0 <= j < i ==> !filtered[j].featured
  {
    var i := FirstIndex(IsFeatured(), filtered);
    if i == -1 then None else Some(filtered[i])
  }

  /** `rest`: the non-featured posts of `filtered`. */
  function Rest(filtered: seq<Card>): (r: seq<Card>)
    ensures forall k :: 0 <= k < |r| ==> r[k] in filtered && !r[k].featured
    ensures forall i :: 0 <= i < |filtered| && !filtered[i].featured ==> filtered[i] in r
  {
    Filter(Not(IsFeatured()), filtered)
  }

  /** The cards of a concatenation are the cards of each part in turn: `rest` keeps the
      order and the repeats of `filtered`. */
  lemma RestAppend(a: seq<Card>, b: seq<Card>)
    ensures Rest(a + b) == Rest(a) + Rest(b)
  {
    FilterAppend(Not(IsFeatured()), a, b);
  }

  /** A single post becomes a card exactly when it is not featured. */
  lemma RestOfOne(p: Card)
    ensures Rest([p]) == if p.featured then [] else [p]
  {
    assert [p][1..] == [];
  }

  /** The number of posts shown, large or as cards. */
  function ShownCount(filtered: seq<Card>): nat {
    |Rest(filtered)| + (if Featured(filtered).Some? then 1 else 0)
  }

  /** Every featured post after the first is shown nowhere: exactly that many posts of
      `filtered` go missing, so all are shown iff at most one is featured. */
  lemma OnlyFirstFeaturedShown(filtered: seq<Card>)
    ensures var featuredCount := Count(IsFeatured(), filtered);
      && ShownCount(filtered) == |filtered| - (if featuredCount > 0 then featuredCount - 1 else 0)
      && (ShownCount(filtered) == |filtered| <==> featuredCount <= 1)
  {
    FilterPartition(IsFeatured(), filtered);
    var featuredCount := Count(IsFeatured(), filtered);
    if featuredCount == 0 {
      assert forall i :: 0 <= i < |filtered| ==> !filtered[i].featured;
    } else {
      var f := Filter(IsFeatured(), filtered);
      assert f[0] in filtered && f[0].featured;
    }
  }
}

=== FILE: blog_section.dfy ===
/**
 The home page's blog teaser: it asks the server for the post listing once,
 keeps the first three posts, and renders nothing at all when loading is over
 and there is nothing to show. Each card's category badge takes its colours
 from a fixed table, with a neutral fallback for any other category.
 */
module BlogSection {
  import opened JsValues
  import PostRoutes

  /** The outcome of the listing request. */
  datatype Fetch = Fetched(data: seq<PostRoutes.Summary>) | FetchFailed

  /** `posts` and `loading`. */
  datatype Teaser = Teaser(posts: seq<PostRoutes.Summary>, loading: bool)

  const Initial: Teaser := Teaser([], true)

  const Shown: nat := 3

  function Min(a: nat, b: nat): nat {
    if a < b then a else b
  }

  /** The effect of the fetch: `data.slice(0, 3)` on success; on failure the posts stay. */
  function AfterFetch(t: Teaser, f: Fetch): (r: Teaser)
    ensures !r.loading
    ensures f.Fetched? ==> |r.posts| == Min(Shown, |f.data|)
    ensures f.Fetched? ==> forall k :: 0 <= k < |r.posts| ==> r.posts[k] == f.data[k]
    ensures f.FetchFailed? ==> r.posts == t.posts
  {
    match f
    case Fetched(data) => Teaser(data[..Min(Shown, |data|)], false)
    case FetchFailed => t.(loading := false)
  }

  /** The section returns null. */
  predicate Hidden(t: Teaser) {
    !t.loading && |t.posts| == 0
  }

  /** The section shows while loading, and afterwards it is hidden exactly when the
      request failed or the server had no posts. */
  lemma HiddenExactlyWhenNothingFetched(f: Fetch)
    ensures !Hidden(Initial)
    ensures Hidden(AfterFetch(Initial, f)) <==> f.FetchFailed? || f.data == []
  {
  }

  /** Against the listing endpoint with no filters, the teaser shows the store's first
      three posts (or all of them, if fewer), in store order. */
  lemma ShowsFirstThreePosts(store: seq<PostRoutes.Post>)
    ensures AfterFetch(Initial, Fetched(PostRoutes.ListPosts(store, None, None))).posts
         == PostRoutes.SummarizeAll(store[..Min(Shown, |store|)])
  {
    PostRoutes.UnfilteredListingIsEveryPost(store);
  }

  /** `CATEGORY_COLORS` */
  const CategoryColors: map<string, string> := map[
    "grammar" := "bg-red-100 text-red-700",
    "culture" := "bg-purple-100 text-purple-700",
    "vocabulary" := "bg-blue-100 text-blue-700",
    "kanji" := "bg-amber-100 text-amber-700"
  ]

  const FallbackColors: string := "bg-muted text-muted-foreground"

  /** The badge colours for a category. */
  function BadgeColors(category: string): (c: string)
    ensures category in CategoryColors ==> c == CategoryColors[category]
    ensures category !in CategoryColors ==> c == FallbackColors
  {
    if category in CategoryColors then CategoryColors[category] else FallbackColors
  }

  /** The neutral colours mark exactly the categories outside the table; the table is keyed
      by lower-case names, so a capitalised category gets the fallback too. */
  lemma FallbackExactlyForUnknown(category: string)
    ensures BadgeColors(category) == FallbackColors <==>
      category !in {"grammar", "culture", "vocabulary", "kanji"}
  {
  }
}

=== FILE: contact.dfy ===
/**
 The contact section's call-back request form: four fields, two change
 handlers, and a submit handler that checks every field is filled, sends the
 request through the mail service, and on success clears the form and shows
 the thank-you notice. The mail service is replaced by whether the send
 succeeds; the send time is left out of the request.
 */
module Contact {
  import opened JsValues

  datatype Form = Form(name: string, phone: string, email: string, course: string)

  /** The text inputs' names; the course is picked from a select with its own handler. */
  datatype Input = Name | Phone | Email

  /** The form, `isSubmitting` and `isSubmitted`. */
  datatype Section = Section(form: Form, submitting: bool, submitted: bool)

  const EmptyForm: Form := Form("", "", "", "")
  const Initial: Section := Section(EmptyForm, false, false)

  /** What is sent to the mail service. */
  datatype CallbackRequest = CallbackRequest(name: string, phone: string, email: string, course: string)

  datatype Toast = Success(text: string) | Failure(text: string)

  /** The section after a submit, the toast shown, and the request sent, if any. */
  datatype Submitted = Submitted(section: Section, toast: Toast, sent: Option<CallbackRequest>)

  function Text(f: Form, i: Input): string {
    match i
    case Name => f.name
    case Phone => f.phone
    case Email => f.email
  }

  /** handleChange: only the named input changes. */
  function HandleChange(s: Section, i: Input, value: string): (r: Section)
    ensures Text(r.form, i) == value
    ensures forall other :: other != i ==> Text(r.form, other) == Text(s.form, other)
    ensures r.form.course == s.form.course
    ensures r.submitting == s.submitting && r.submitted == s.submitted
  {
    var f := match i
      case Name => s.form.(name := value)
      case Phone => s.form.(phone := value)
      case Email => s.form.(email := value);
    s.(form := f)
  }

  /** handleCourseChange: only the course changes. */
  function HandleCourseChange(s: Section, value: string): (r: Section)
    ensures r.form.course == value
    ensures forall i :: Text(r.form, i) == Text(s.form, i)
    ensures r.submitting == s.submitting && r.submitted == s.submitted
  {
    s.(form := s.form.(course := value))
  }

  predicate Complete(f: Form) {
    f.name != "" && f.phone != "" && f.email != "" && f.course != ""
  }

  /** handleSubmit, with `delivered` standing for whether the mail service accepts the request. */
  function HandleSubmit(s: Section, delivered: bool): (r: Submitted)
    ensures !Complete(s.form) ==>
      r == Submitted(s, Failure("Please fill in all fields"), None)
    ensures Complete(s.form) ==>
      && r.sent == Some(CallbackRequest(s.form.name, s.form.phone, s.form.email, s.form.course))
      && !r.section.submitting
    ensures Complete(s.form) && delivered ==>
      && r.section.form == EmptyForm
      && r.section.submitted
      && r.toast == Success("Request submitted successfully! We will contact you soon.")
    ensures Complete(s.form) && !delivered ==>
      && r.section == s.(submitting := false)
      && r.toast == Failure("Failed to submit request. Please try again or contact us directly.")
  {
    if !Complete(s.form) then Submitted(s, Failure("Please fill in all fields"), None)
    else
      var request := CallbackRequest(s.form.name, s.form.phone, s.form.email, s.form.course);
      if delivered then
        Submitted(Section(EmptyForm, false, true),
                  Success("Request submitted successfully! We will contact you soon."), Some(request))
      else
        Submitted(s.(submitting := false),
                  Failure("Failed to submit request. Please try again or contact us directly."), Some(request))
  }

  /** Five seconds after a successful request the thank-you notice goes away. */
  function NoticeExpires(s: Section): (r: Section)
    ensures !r.submitted && r.form == s.form && r.submitting == s.submitting
  {
    s.(submitted := false)
  }

  /** After a successful request the form is empty, so pressing submit again sends nothing;
      after a failed one the form is kept, so the same request can be sent again. */
  lemma ResubmitAfterSend(s: Section, delivered: bool, again: bool)
    requires Complete(s.form)
    ensures var first := HandleSubmit(s, delivered);
      && (delivered ==> HandleSubmit(first.section, again).sent == None)
      && (!delivered ==> HandleSubmit(first.section, again).sent == first.sent)
  {
  }
}

=== FILE: form_errors.dfy ===
/**
 What the sign-up and login pages do with the answer to their request: a
 rejected request shows the server's error string, else the client library's
 message, else a fixed fallback; an accepted one stores the session and
 leaves the page. The network call itself is replaced by its answer.
 */
module FormErrors {
  import opened JsValues
  import AuthRoutes
  import Http

  /** A rejected request as a page's catch block sees it:
      `err.response?.data?.error` and `err.message`. */
  datatype ApiError = ApiError(serverError: Option<string>, message: Option<string>)

  /** The answer to the page's register or login call. */
  datatype Answer = Accepted(session: AuthRoutes.Session) | Refused(err: ApiError)

  /** How a submit ends: refused by the page's own checks with no call made, refused
      by the call, or signed in with the session the server sent. */
  datatype Submission = NotSent(error: string) | CallFailed(error: string) | SignedIn(session: AuthRoutes.Session)

  /** `err.response?.data?.error || err.message || fallback` */
  function ErrorText(err: ApiError, fallback: string): (text: string)
    ensures Truthy(err.serverError) ==> text == err.serverError.value
    ensures !Truthy(err.serverError) && Truthy(err.message) ==> text == err.message.value
    ensures !Truthy(err.serverError) && !Truthy(err.message) ==> text == fallback
    ensures fallback != "" ==> text != ""
  {
    OrElse(err.serverError, OrElse(err.message, fallback))
  }

  /** An error reply from the server is shown to the user word for word. */
  lemma ServerErrorShown<T>(reply: Http.Reply<T>, message: Option<string>, fallback: string)
    requires reply.Err? && reply.error != ""
    ensures ErrorText(ApiError(Some(reply.error), message), fallback) == reply.error
  {
  }

  /** The end of a submit whose own checks passed: the call's answer decides. */
  function AfterCall(answer: Answer, fallback: string): (s: Submission)
    ensures !s.NotSent?
    ensures answer.Accepted? <==> s.SignedIn?
    ensures s.SignedIn? ==> s.session == answer.session
    ensures s.CallFailed? ==> s.error == ErrorText(answer.err, fallback)
  {
    match answer
    case Accepted(session) => SignedIn(session)
    case Refused(err) => CallFailed(ErrorText(err, fallback))
  }
}

=== FILE: http.dfy ===
/** What an Express route handler sends back. */
module Http {

  /** A JSON response: a body with a success status, or `{ error }` with an error status. */
  datatype Reply<+T> = Ok(status: nat, body: T) | Err(status: nat, error: string)
}

=== FILE: js_string.dfy ===
/**
 The JavaScript string operations the blog code relies on: `trim`,
 `toLowerCase`, `includes`, `startsWith`, `split`, `join` and `length`.
 Strings are sequences of Unicode scalar values.
 */
module JsString {

  /** The ECMAScript WhiteSpace and LineTerminator code points: what `trim` removes. */
  predicate IsSpace(c: char) {
    || c == '\t' || c == '\n' || c == '\U{000B}' || c == '\U{000C}' || c == '\r'
    || c == ' ' || c == '\U{00A0}' || c == '\U{1680}'
    || ('\U{2000}' <= c <= '\U{200A}')
    || c == '\U{2028}' || c == '\U{2029}' || c == '\U{202F}' || c == '\U{205F}'
    || c == '\U{3000}' || c == '\U{FEFF}'
  }

  predicate AllSpace(s: string) {
    forall i :: 0 <= i < |s| ==> IsSpace(s[i])
  }

  /** Neither end of `s` is whitespace, so `trim` leaves it alone. */
  predicate IsTrimmed(s: string) {
    |s| == 0 || (!IsSpace(s[0]) && !IsSpace(s[|s| - 1]))
  }

  /** The end of the run of whitespace that starts at `from`. */
  function SpaceRunEnd(s: string, from: nat): (e: nat)
    requires from <= |s|
    ensures from <= e <= |s|
    ensures forall i :: from <= i < e ==> IsSpace(s[i])
    ensures e == |s| || !IsSpace(s[e])
    decreases |s| - from
  {
    if from < |s| && IsSpace(s[from]) then SpaceRunEnd(s, from + 1) else from
  }

  /** The start of the run of whitespace that ends at `high`, going no lower than `low`. */
  function SpaceRunStart(s: string, low: nat, high: nat): (b: nat)
    requires low <= high <= |s|
    ensures low <= b <= high
    ensures forall i :: b <= i < high ==> IsSpace(s[i])
    ensures b == low || !IsSpace(s[b - 1])
    decreases high
  {
    if low < high && IsSpace(s[high - 1]) then SpaceRunStart(s, low, high - 1) else high
  }

  /** `s.trim()`: whitespace removed from both ends. */
  function Trim(s: string): (r: string)
    ensures IsTrimmed(r)
    ensures |r| <= |s|
    ensures r == [] <==> AllSpace(s)
    ensures IsTrimmed(s) ==> r == s
    ensures var a := SpaceRunEnd(s, 0);
      a + |r| <= |s| && r == s[a..a + |r|] && AllSpace(s[..a]) && AllSpace(s[a + |r|..])
  {
    var a := SpaceRunEnd(s, 0);
    var b := SpaceRunStart(s, a, |s|);
    TrimCuts(s, a, b);
    assert s[a..b] == s[a..a + (b - a)];
    s[a..b]
  }

  /** The cuts `Trim` makes: whitespace on either side, and a non-blank first and last
      character in between unless all of `s` is whitespace. */
  lemma TrimCuts(s: string, a: nat, b: nat)
    requires a == SpaceRunEnd(s, 0) && b == SpaceRunStart(s, a, |s|)
    ensures AllSpace(s[..a]) && AllSpace(s[b..])
    ensures a < b ==> !IsSpace(s[a]) && !IsSpace(s[b - 1]) && !AllSpace(s)
    ensures a == b ==> AllSpace(s)
  {
    assert forall i :: 0 <= i < a ==> s[..a][i] == s[i];
    assert forall i :: 0 <= i < |s| - b ==> s[b..][i] == s[b + i];
  }

  /** A character missing from `s` is missing from `s.trim()`. */
  lemma TrimKeepsOut(s: string, c: char)
    requires c !in s
    ensures c !in Trim(s)
  {
    var a := SpaceRunEnd(s, 0);
    var b := SpaceRunStart(s, a, |s|);
    assert forall k :: 0 <= k < b - a ==> s[a..b][k] == s[a + k];
  }

  /** Trimming twice is trimming once. */
  lemma TrimIdempotent(s: string)
    ensures Trim(Trim(s)) == Trim(s)
  {
  }

  /** A trimmed non-empty word behind one space trims back to the word. */
  lemma TrimLeadingBlank(t: string)
    requires t != [] && IsTrimmed(t)
    ensures Trim(" " + t) == t
  {
    var s := " " + t;
    assert SpaceRunEnd(s, 1) == 1 && SpaceRunEnd(s, 0) == 1;
    assert s[|s| - 1] == t[|t| - 1];
    assert s[1..|s|] == t;
  }

  /** ASCII case folding of one character: `A`..`Z` to `a`..`z`. */
  function LowerChar(c: char): char {
    if 'A' <= c <= 'Z' then (c as int + 32) as char else c
  }

  /** `s.toLowerCase()` on the ASCII range. */
  function ToLower(s: string): (r: string)
    ensures |r| == |s|
    ensures forall i :: 0 <= i < |r| ==> !('A' <= r[i] <= 'Z')
    ensures forall i :: 0 <= i < |s| && !('A' <= s[i] <= 'Z') ==> r[i] == s[i]
    ensures forall i :: 0 <= i < |s| && 'A' <= s[i] <= 'Z' ==> r[i] as int == s[i] as int + 32
  {
    seq(|s|, i requires 0 <= i < |s| => LowerChar(s[i]))
  }

  /** `q` occurs in `s` starting at index `i`. */
  predicate OccursAt(s: string, q: string, i: int) {
    0 <= i && i + |q| <= |s| && s[i..i + |q|] == q
  }

  /** `s.includes(q)`. */
  predicate Contains(s: string, q: string) {
    exists i :: 0 <= i <= |s| - |q| && OccursAt(s, q, i)
  }

  /** `text.toLowerCase().includes(query.toLowerCase())`. */
  predicate ContainsIgnoringCase(text: string, query: string) {
    Contains(ToLower(text), ToLower(query))
  }

  /** `s.startsWith(p)`. */
  predicate StartsWith(s: string, p: string) {
    |p| <= |s| && s[..|p|] == p
  }

  /** `s.indexOf(c)`: the first position of `c` in `s`, or -1. */
  function IndexOf(s: string, c: char): (i: int)
    ensures -1 <= i < |s|
    ensures i == -1 <==> c !in s
    ensures 0 <= i ==> s[i] == c && c !in s[..i]
    decreases |s|
  {
    if |s| == 0 then -1
    else if s[0] == c then 0
    else
      var j := IndexOf(s[1..], c);
      assert s == [s[0]] + s[1..];
      if j == -1 then -1
      else
        assert s[..j + 1] == [s[0]] + s[1..][..j];
        j + 1
  }

  /** `s.split(sep)` for a one-character separator: always at least one piece. */
  function Split(s: string, sep: char): (parts: seq<string>)
    ensures |parts| >= 1
    ensures forall k :: 0 <= k < |parts| ==> sep !in parts[k]
    decreases |s|
  {
    var i := IndexOf(s, sep);
    if i == -1 then [s] else [s[..i]] + Split(s[i + 1..], sep)
  }

  /** A separator between two strings splits them apart: the pieces of `a` and then those of `b`. */
  lemma {:induction false} SplitAround(a: string, b: string, sep: char)
    ensures Split(a + [sep] + b, sep) == Split(a, sep) + Split(b, sep)
    decreases |a|
  {
    var s := a + [sep] + b;
    var i := IndexOf(a, sep);
    if i == -1 {
      assert s[..|a|] == a;
      IndexOfFirst(s, sep, |a|);
      assert s[|a| + 1..] == b;
      SplitAt(s, sep);
    } else {
      var tail := a[i + 1..];
      assert s[..i] == a[..i];
      IndexOfFirst(s, sep, i);
      assert s[i + 1..] == tail + [sep] + b;
      SplitAt(s, sep);
      SplitAt(a, sep);
      SplitAround(tail, b, sep);
      ConsAppend(a[..i], Split(tail, sep), Split(b, sep));
    }
  }

  lemma ConsAppend<T>(x: T, p: seq<T>, q: seq<T>)
    ensures [x] + (p + q) == ([x] + p) + q
  {
  }

  /** One step of `Split`: the piece before the first separator, then the pieces after it. */
  lemma SplitAt(s: string, sep: char)
    requires sep in s
    ensures var i := IndexOf(s, sep);
      Split(s, sep) == [s[..i]] + Split(s[i + 1..], sep)
  {
  }

  /** The first position holding `c` is what `IndexOf` finds. */
  lemma IndexOfFirst(s: string, c: char, i: nat)
    requires i < |s| && s[i] == c && c !in s[..i]
    ensures IndexOf(s, c) == i
  {
    assert s[i] == c;
  }

  /** `parts.join(sep)`. */
  function Join(parts: seq<string>, sep: string): string
    decreases |parts|
  {
    if |parts| == 0 then ""
    else if |parts| == 1 then parts[0]
    else parts[0] + sep + Join(parts[1..], sep)
  }

  /** Splitting and re-joining on the same character gives back the string. */
  lemma {:induction false} JoinSplit(s: string, sep: char)
    ensures Join(Split(s, sep), [sep]) == s
    decreases |s|
  {
    if sep !in s {
      assert Split(s, sep) == [s];
    } else {
      var i := IndexOf(s, sep);
      JoinSplit(s[i + 1..], sep);
      JoinSplitStep(s, sep);
    }
  }

  /** The step of `JoinSplit`: if re-joining works after the first separator, it works for all of `s`. */
  lemma JoinSplitStep(s: string, sep: char)
    requires sep in s
    requires Join(Split(s[IndexOf(s, sep) + 1..], sep), [sep]) == s[IndexOf(s, sep) + 1..]
    ensures Join(Split(s, sep), [sep]) == s
  {
    var i := IndexOf(s, sep);
    var head, tail := s[..i], s[i + 1..];
    var rest := Split(tail, sep);
    SplitAt(s, sep);
    JoinCons(head, rest, [sep]);
    CutAt(s, i);
  }

  /** Past the first occurrence of `s[i]`, one occurrence fewer remains. */
  lemma CountFirst<T>(s: seq<T>, i: nat)
    requires i < |s| && s[i] !in s[..i]
    ensures multiset(s)[s[i]] == multiset(s[i + 1..])[s[i]] + 1
  {
    CutAt(s, i);
    assert multiset(s) == multiset(s[..i]) + multiset([s[i]]) + multiset(s[i + 1..]);
  }

  /** A sequence is what comes before position `i`, the element there, and what comes after. */
  lemma CutAt<T>(s: seq<T>, i: nat)
    requires i < |s|
    ensures s == s[..i] + [s[i]] + s[i + 1..]
  {
  }

  /** Joining a first piece in front of at least one more puts the separator between them. */
  lemma JoinCons(head: string, rest: seq<string>, sep: string)
    requires |rest| >= 1
    ensures Join([head] + rest, sep) == head + sep + Join(rest, sep)
  {
    assert ([head] + rest)[1..] == rest;
  }

  /** Joining pieces free of the separator and splitting again gives back the pieces. */
  lemma {:induction false} SplitJoin(parts: seq<string>, sep: char)
    requires |parts| >= 1
    requires forall k :: 0 <= k < |parts| ==> sep !in parts[k]
    ensures Split(Join(parts, [sep]), sep) == parts
    decreases |parts|
  {
    if |parts| > 1 {
      var head, rest := parts[0], parts[1..];
      var tail := Join(rest, [sep]);
      var s := head + [sep] + tail;
      assert Join(parts, [sep]) == s;
      assert s[..|head|] == head;
      IndexOfFirst(s, sep, |head|);
      assert s[|head| + 1..] == tail;
      SplitAt(s, sep);
      SplitJoin(rest, sep);
      assert parts == [head] + rest;
    } else {
      assert sep !in parts[0];
    }
  }

  /** `s.split(sep)` has one more piece than `s` has separators. */
  lemma {:induction false} SplitCount(s: string, sep: char)
    ensures |Split(s, sep)| == multiset(s)[sep] + 1
    decreases |s|
  {
    var i := IndexOf(s, sep);
    if i == -1 {
      assert multiset(s)[sep] == 0;
    } else {
      SplitAt(s, sep);
      SplitCount(s[i + 1..], sep);
      CountFirst(s, i);
    }
  }

  /** `s.length`: the number of UTF-16 code units, two for a code point above U+FFFF. */
  function Utf16Length(s: string): (n: nat)
    ensures |s| <= n <= 2 * |s|
    ensures n == |s| <==> forall i :: 0 <= i < |s| ==> s[i] as int <= 0xFFFF
  {
    if |s| == 0 then 0
    else (if s[0] as int > 0xFFFF then 2 else 1) + Utf16Length(s[1..])
  }

  /** One character is one UTF-16 unit, or two (a surrogate pair) above U+FFFF. */
  lemma Utf16LengthOfOne(c: char)
    ensures Utf16Length([c]) == if c as int > 0xFFFF then 2 else 1
  {
    assert [c][1..] == [];
  }

  /** The length of a concatenation is the sum of the lengths, so with `Utf16LengthOfOne`
      the length of any string is its number of characters plus those above U+FFFF. */
  lemma {:induction false} Utf16LengthAppend(a: string, b: string)
    ensures Utf16Length(a + b) == Utf16Length(a) + Utf16Length(b)
    decreases |a|
  {
    if |a| == 0 {
      assert a + b == b;
    } else {
      assert (a + b)[0] == a[0];
      assert (a + b)[1..] == a[1..] + b;
      Utf16LengthAppend(a[1..], b);
    }
  }
}

=== FILE: js_values.dfy ===
/**
 Values as the blog's JavaScript code sees them: an optional field of a request
 body, query string or loaded record, and JavaScript truthiness of such a field.
 */
module JsValues {

  /** A field a request body or a stored record may lack (`undefined` or `null`). */
  datatype Option<T> = None | Some(value: T)

  /** The field's value, or `fallback` when it is absent. */
  function ValueOr<T>(v: Option<T>, fallback: T): T {
    if v.Some? then v.value else fallback
  }

  /** JavaScript truthiness of an optional string: present and not "". */
  predicate Truthy(v: Option<string>) {
    v.Some? && v.value != ""
  }

  /** The source's `v || fallback` on an optional string. */
  function OrElse(v: Option<string>, fallback: string): (r: string)
    ensures Truthy(v) ==> r == v.value
    ensures !Truthy(v) ==> r == fallback
  {
    if Truthy(v) then v.value else fallback
  }
}

=== FILE: login_page.dfy ===
/**
 The login page: a two-field form, its change handler, and its submit handler,
 which checks that both fields are filled before calling /login. The check is
 the server's own 400 check, with the same message.
 */
module LoginPage {
  import opened JsValues
  import opened FormErrors
  import AuthRoutes
  import Http
  import Bearer

  datatype Form = Form(email: string, password: string)

  /** The form's input names. */
  datatype Field = Email | Password

  /** The page's form and the error line under it. */
  datatype Page = Page(form: Form, error: string)

  function Get(f: Form, field: Field): string {
    match field
    case Email => f.email
    case Password => f.password
  }

  /** handleChange: the input named `field` now holds `value`, and the error is cleared. */
  function HandleChange(p: Page, field: Field, value: string): (r: Page)
    ensures r.error == ""
    ensures Get(r.form, field) == value
    ensures forall other :: other != field ==> Get(r.form, other) == Get(p.form, other)
  {
    var f := match field
      case Email => p.form.(email := value)
      case Password => p.form.(password := value);
    Page(f, "")
  }

  /** The page's own check: `None` when the form may be sent, else the message shown. */
  function Check(f: Form): (problem: Option<string>)
    ensures problem.None? <==> f.email != "" && f.password != ""
    ensures problem.Some? ==> problem.value == "Email and password are required."
  {
    if f.email == "" || f.password == "" then Some("Email and password are required.") else None
  }

  /** handleSubmit, with `answer` standing for what the login call would answer. */
  function HandleSubmit(f: Form, answer: Answer): (s: Submission)
    ensures s.NotSent? <==> f.email == "" || f.password == ""
    ensures s.NotSent? ==> s.error == "Email and password are required."
    ensures s.CallFailed? ==> answer.Refused? && s.error == ErrorText(answer.err, "Login failed")
    ensures s.SignedIn? <==> f.email != "" && f.password != "" && answer.Accepted?
    ensures s.SignedIn? ==> s.session == answer.session
  {
    match Check(f)
    case Some(problem) => NotSent(problem)
    case None => AfterCall(answer, "Login failed")
  }

  /** The page holds a form back exactly when /login would answer it with a 400, and
      then shows the server's own message; a form it sends is answered 200 or 401. */
  lemma CheckMatchesServer(f: Form, users: seq<AuthRoutes.User>, compare: AuthRoutes.Checker, sign: Bearer.Signer)
    ensures var reply := AuthRoutes.Login(users, Some(f.email), Some(f.password), compare, sign);
      && (Check(f).Some? ==> reply == Http.Err(400, Check(f).value))
      && (Check(f).None? ==> reply.status == 200 || reply.status == 401)
  {
  }
}

=== FILE: post_editor.dfy ===
/**
 The admin post editor: the form state and its change handler, the defaults
 applied to a loaded post, submit validation and the payload sent to the
 create or update call, the comma-separated tag field, and the preview that
 classifies each content line as a heading, list item, blank or paragraph.
 */
module PostEditor {
  import opened JsValues
  import opened JsString
  import opened Seqs
  import AuthRoutes

  datatype EditorForm = EditorForm(
    title: string, excerpt: string, content: string, category: string,
    tags: string, featured: bool, image: string)

  /** The form and the error line above it. */
  datatype Editor = Editor(form: EditorForm, error: string)

  const DefaultCategory: string := "grammar"

  /** The text inputs of the form; `featured` is the one checkbox. */
  datatype TextField = Title | Excerpt | Content | Category | Tags | Image

  datatype FieldEvent = TextChanged(field: TextField, value: string) | FeaturedToggled(checked: bool)

  function TextOf(form: EditorForm, field: TextField): string {
    match field
    case Title => form.title
    case Excerpt => form.excerpt
    case Content => form.content
    case Category => form.category
    case Tags => form.tags
    case Image => form.image
  }

  /** handleChange: the named field takes the input's value (its `checked` state for the checkbox). */
  function HandleChange(ed: Editor, ev: FieldEvent): (r: Editor)
    ensures r.error == ""
    ensures ev.TextChanged? ==>
      && TextOf(r.form, ev.field) == ev.value
      && r.form.featured == ed.form.featured
      && forall f :: f != ev.field ==> TextOf(r.form, f) == TextOf(ed.form, f)
    ensures ev.FeaturedToggled? ==>
      r.form.featured == ev.checked && forall f :: TextOf(r.form, f) == TextOf(ed.form, f)
  {
    var form := ed.form;
    var updated :=
      match ev
      case FeaturedToggled(checked) => form.(featured := checked)
      case TextChanged(Title, v) => form.(title := v)
      case TextChanged(Excerpt, v) => form.(excerpt := v)
      case TextChanged(Content, v) => form.(content := v)
      case TextChanged(Category, v) => form.(category := v)
      case TextChanged(Tags, v) => form.(tags := v)
      case TextChanged(Image, v) => form.(image := v);
    Editor(updated, "")
  }

  // ---------------------------------------------------------------- tags

  /** A tag as the parser produces it: non-empty, no surrounding blanks, no comma. */
  predicate WellFormedTag(t: string) {
    t != "" && IsTrimmed(t) && ',' !in t
  }

  function TrimAll(pieces: seq<string>): (r: seq<string>)
    ensures |r| == |pieces|
    ensures forall k :: 0 <= k < |r| ==> r[k] == Trim(pieces[k])
  {
    seq(|pieces|, k requires 0 <= k < |pieces| => Trim(pieces[k]))
  }

  function NonEmpty(): string -> bool {
    (s: string) => s != ""
  }

  /** `tags.split(',').map(t => t.trim()).filter(Boolean)` */
  function ParseTags(s: string): (tags: seq<string>)
    ensures |tags| <= |Split(s, ',')|
    ensures forall k :: 0 <= k < |tags| ==> WellFormedTag(tags[k])
    ensures forall k :: 0 <= k < |Split(s, ',')| && Trim(Split(s, ',')[k]) != "" ==>
      Trim(Split(s, ',')[k]) in tags
    ensures forall k :: 0 <= k < |tags| ==> tags[k] in TrimAll(Split(s, ','))
  {
    var pieces := Split(s, ',');
    var trimmed := TrimAll(pieces);
    forall k | 0 <= k < |trimmed|
      ensures ',' !in trimmed[k]
    {
      TrimKeepsOut(pieces[k], ',');
    }
    Filter(NonEmpty(), trimmed)
  }

  /** Text free of commas is one tag, or none when it is blank. */
  lemma ParseOneTag(s: string)
    requires ',' !in s
    ensures ParseTags(s) == if Trim(s) == "" then [] else [Trim(s)]
  {
    assert IndexOf(s, ',') == -1;
    assert Split(s, ',') == [s];
    assert TrimAll([s]) == [Trim(s)];
  }

  /** The tags of text joined at a comma are the tags of the left part followed by those
      of the right part: parsing keeps the order and the repeats of the tags written. */
  lemma ParseTagsAround(a: string, b: string)
    ensures ParseTags(a + "," + b) == ParseTags(a) + ParseTags(b)
  {
    var pa, pb := Split(a, ','), Split(b, ',');
    SplitAround(a, b, ',');
    TrimAllAppend(pa, pb);
    FilterAppend(NonEmpty(), TrimAll(pa), TrimAll(pb));
    ParseTagsUnfold(a + "," + b);
    ParseTagsUnfold(a);
    ParseTagsUnfold(b);
  }

  lemma TrimAllAppend(p: seq<string>, q: seq<string>)
    ensures TrimAll(p + q) == TrimAll(p) + TrimAll(q)
  {
    assert forall k :: 0 <= k < |p + q| ==> TrimAll(p + q)[k] == (TrimAll(p) + TrimAll(q))[k];
  }

  lemma ParseTagsUnfold(s: string)
    ensures ParseTags(s) == Filter(NonEmpty(), TrimAll(Split(s, ',')))
  {
  }

  /** The tag field of a loaded post: `(tags || []).join(', ')`. */
  function ShowTags(tags: seq<string>): string {
    Join(tags, ", ")
  }

  /** Each tag after the first with one blank in front. */
  function PadAll(ts: seq<string>): (r: seq<string>)
    ensures |r| == |ts|
    ensures forall k :: 0 <= k < |r| ==> r[k] == " " + ts[k]
  {
    seq(|ts|, k requires 0 <= k < |ts| => " " + ts[k])
  }

  lemma {:induction false} JoinPadded(ts: seq<string>)
    requires |ts| >= 1
    ensures " " + Join(ts, ", ") == Join(PadAll(ts), ",")
    decreases |ts|
  {
    if |ts| > 1 {
      JoinPadded(ts[1..]);
      assert PadAll(ts)[1..] == PadAll(ts[1..]);
      assert " " + Join(ts, ", ") == (" " + ts[0]) + "," + (" " + Join(ts[1..], ", "));
    }
  }

  /** Joining with ", " is joining with "," after padding every tag but the first. */
  lemma ShowTagsAsCommaJoin(tags: seq<string>)
    requires |tags| >= 1
    ensures ShowTags(tags) == Join(ShownPieces(tags), ",")
  {
    var padded := ShownPieces(tags);
    if |tags| > 1 {
      JoinPadded(tags[1..]);
      assert padded[1..] == PadAll(tags[1..]);
      assert ShowTags(tags) == tags[0] + "," + (" " + Join(tags[1..], ", "));
    }
  }

  /** The pieces of the shown tag field, split on commas: the first tag, then each later one padded. */
  function ShownPieces(tags: seq<string>): (pieces: seq<string>)
    requires |tags| >= 1
    ensures |pieces| == |tags|
  {
    [tags[0]] + PadAll(tags[1..])
  }

  /** A well-formed tag with one blank in front has no comma and trims back to the tag. */
  lemma PaddedTagTrims(t: string)
    requires WellFormedTag(t)
    ensures ',' !in " " + t && Trim(" " + t) == t
  {
    TrimLeadingBlank(t);
  }

  /** No shown piece of well-formed tags contains a comma, and trimming each gives back its tag. */
  lemma ShownPiecesTrimBack(tags: seq<string>)
    requires |tags| >= 1 && forall k :: 0 <= k < |tags| ==> WellFormedTag(tags[k])
    ensures forall k :: 0 <= k < |tags| ==> ',' !in ShownPieces(tags)[k]
    ensures forall k :: 0 <= k < |tags| ==> Trim(ShownPieces(tags)[k]) == tags[k]
  {
    var padded := ShownPieces(tags);
    forall k | 0 <= k < |tags|
      ensures ',' !in padded[k] && Trim(padded[k]) == tags[k]
    {
      if k > 0 {
        assert padded[k] == " " + tags[k];
        PaddedTagTrims(tags[k]);
      } else {
        assert IsTrimmed(tags[0]);
      }
    }
  }

  /** Showing well-formed tags in the field and parsing the field again gives back the same tags. */
  lemma TagsRoundTrip(tags: seq<string>)
    requires forall k :: 0 <= k < |tags| ==> WellFormedTag(tags[k])
    ensures ParseTags(ShowTags(tags)) == tags
  {
    if |tags| == 0 {
      assert Split("", ',') == [""];
    } else {
      var pieces := ShownPieces(tags);
      ShownPiecesTrimBack(tags);
      var trimmed := TrimAll(pieces);
      assert trimmed == tags;
      ShowTagsAsCommaJoin(tags);
      SplitJoin(pieces, ',');
      assert Split(ShowTags(tags), ',') == pieces;
      FilterAll(NonEmpty(), tags);
    }
  }

  /** Parsing is stable: the parsed tags, shown and parsed again, do not change. */
  lemma ParseTagsStable(s: string)
    ensures ParseTags(ShowTags(ParseTags(s))) == ParseTags(s)
  {
    TagsRoundTrip(ParseTags(s));
  }

  // ---------------------------------------------------------------- load

  /** A post as returned by the API, where any field may be missing. */
  datatype StoredPost = StoredPost(
    title: Option<string>, excerpt: Option<string>, content: Option<string>,
    category: Option<string>, tags: Option<seq<string>>, featured: Option<bool>,
    image: Option<string>)

  /** The form filled from a loaded post. */
  function FormFromPost(data: StoredPost): (f: EditorForm)
    ensures f.title == ValueOr(data.title, "") && f.excerpt == ValueOr(data.excerpt, "")
    ensures f.content == ValueOr(data.content, "") && f.image == ValueOr(data.image, "")
    ensures Truthy(data.category) ==> f.category == data.category.value
    ensures !Truthy(data.category) ==> f.category == "grammar"
    ensures f.featured <==> data.featured == Some(true)
    ensures f.tags == ShowTags(ValueOr(data.tags, []))
  {
    EditorForm(
      OrElse(data.title, ""), OrElse(data.excerpt, ""), OrElse(data.content, ""),
      OrElse(data.category, DefaultCategory), ShowTags(ValueOr(data.tags, [])),
      ValueOr(data.featured, false), OrElse(data.image, ""))
  }

  /** The editor after the load request for the post being edited: filled from the post,
      or showing the load error with the form as it was. */
  function AfterLoad(ed: Editor, loaded: Option<StoredPost>): (r: Editor)
    ensures loaded.Some? ==> r.form == FormFromPost(loaded.value) && r.error == ed.error
    ensures loaded.None? ==> r.form == ed.form && r.error == "Failed to load post."
  {
    match loaded
    case Some(data) => ed.(form := FormFromPost(data))
    case None => ed.(error := "Failed to load post.")
  }

  // ---------------------------------------------------------------- access

  /** The user record the browser keeps after signing in, as the editor parses it back. */
  datatype StoredUser = StoredUser(id: int, name: string, email: string, role: Option<string>)

  /** The record the sign-up and login pages store: the session's user, which has no role. */
  function Stored(u: AuthRoutes.PublicUser): StoredUser {
    StoredUser(u.id, u.name, u.email, None)
  }

  /** The editor's access check: only a stored user with role "ADMIN" stays on the page. */
  function MayEdit(user: Option<StoredUser>): (ok: bool)
    ensures ok ==> user.Some? && user.value.role == Some("ADMIN")
    ensures user.Some? && user.value.role == Some("ADMIN") ==> ok
  {
    user.Some? && user.value.role == Some("ADMIN")
  }

  /** Signing in through the site never opens the editor: the stored user carries no role. */
  lemma SignedInUsersCannotEdit(s: AuthRoutes.Session)
    ensures !MayEdit(Some(Stored(s.user)))
    ensures !MayEdit(None)
  {
  }

  // ---------------------------------------------------------------- submit

  datatype Payload = Payload(
    title: string, excerpt: string, content: string, category: string,
    tags: seq<string>, featured: bool, image: Option<string>)

  /** `updatePost(slug, payload)` when editing, `createPost(payload)` otherwise. */
  datatype SaveCall = Create(payload: Payload) | Update(slug: string, payload: Payload)

  datatype Submission = Rejected(error: string) | Save(call: SaveCall)

  predicate HeaderComplete(form: EditorForm) {
    form.title != "" && form.excerpt != "" && form.category != ""
  }

  /** handleSubmit: validation, then the payload and which API call receives it. */
  function Submit(form: EditorForm, slug: Option<string>): (r: Submission)
    ensures !HeaderComplete(form) ==> r == Rejected("Title, excerpt, and category are required.")
    ensures HeaderComplete(form) && form.content == "" ==> r == Rejected("Post content is required.")
    ensures r.Save? <==> HeaderComplete(form) && form.content != ""
    ensures r.Save? ==> (r.call.Update? <==> Truthy(slug))
    ensures r.Save? && r.call.Update? ==> r.call.slug == slug.value
    ensures r.Save? ==>
      var p := r.call.payload;
      && p.title == form.title && p.excerpt == form.excerpt && p.content == form.content
      && p.category == form.category && p.featured == form.featured
      && p.tags == ParseTags(form.tags)
      && (p.image.None? <==> form.image == "")
      && (p.image.Some? ==> p.image.value == form.image)
  {
    if !HeaderComplete(form) then Rejected("Title, excerpt, and category are required.")
    else if form.content == "" then Rejected("Post content is required.")
    else
      var image := if form.image != "" then Some(form.image) else None;
      var payload := Payload(form.title, form.excerpt, form.content, form.category,
                             ParseTags(form.tags), form.featured, image);
      if Truthy(slug) then Save(Update(slug.value, payload)) else Save(Create(payload))
  }

  /** Loading a complete post with well-formed tags and saving it untouched sends the
      post back unchanged to the update call. */
  lemma LoadThenSaveUnchanged(data: StoredPost, slug: string)
    requires Truthy(data.title) && Truthy(data.excerpt) && Truthy(data.content) && Truthy(data.category)
    requires data.tags.Some? && forall k :: 0 <= k < |data.tags.value| ==> WellFormedTag(data.tags.value[k])
    requires data.featured.Some? && data.image.Some? && slug != ""
    ensures Submit(FormFromPost(data), Some(slug)) == Save(Update(slug, Payload(
      data.title.value, data.excerpt.value, data.content.value, data.category.value,
      data.tags.value, data.featured.value,
      if data.image.value == "" then None else data.image)))
  {
    TagsRoundTrip(data.tags.value);
  }

  /** The message shown when the save call fails: `err.response?.data?.error || 'Failed to save post.'` */
  function SaveErrorText(serverError: Option<string>): (text: string)
    ensures text != ""
    ensures Truthy(serverError) ==> text == serverError.value
    ensures !Truthy(serverError) ==> text == "Failed to save post."
  {
    OrElse(serverError, "Failed to save post.")
  }

  // ---------------------------------------------------------------- preview

  /** How the preview renders one line of content. */
  datatype Block = H3(text: string) | H2(text: string) | H1(text: string) | Item(text: string) | Break | Para(text: string)

  /** The markdown that produces a block: the inverse of `Classify` on everything but blanks. */
  function Markup(b: Block): string {
    match b
    case H3(t) => "### " + t
    case H2(t) => "## " + t
    case H1(t) => "# " + t
    case Item(t) => "- " + t
    case Break => ""
    case Para(t) => t
  }

  /** The preview's classification of a line. The five line shapes exclude each other,
      so each block kind holds exactly when its own shape does, whatever the test order. */
  function Classify(line: string): (b: Block)
    ensures b.H3? <==> StartsWith(line, "### ")
    ensures b.H2? <==> StartsWith(line, "## ")
    ensures b.H1? <==> StartsWith(line, "# ")
    ensures b.Item? <==> StartsWith(line, "- ")
    ensures b.Break? <==> AllSpace(line)
    ensures !b.Break? ==> Markup(b) == line
  {
    assert StartsWith(line, "## ") ==> line[1] == '#';
    assert StartsWith(line, "### ") ==> line[2] == '#';
    assert |line| > 0 && (line[0] == '#' || line[0] == '-') ==> !AllSpace(line);
    if StartsWith(line, "### ") then H3(line[4..])
    else if StartsWith(line, "## ") then H2(line[3..])
    else if StartsWith(line, "# ") then H1(line[2..])
    else if StartsWith(line, "- ") then Item(line[2..])
    else if Trim(line) == "" then Break
    else Para(line)
  }

  /** The preview: `content.split('\n')`, one block per line. */
  function Preview(content: string): (blocks: seq<Block>)
    ensures |blocks| == |Split(content, '\n')| == multiset(content)['\n'] + 1
    ensures forall k :: 0 <= k < |blocks| ==> blocks[k] == Classify(Split(content, '\n')[k])
  {
    var lines := Split(content, '\n');
    SplitCount(content, '\n');
    seq(|lines|, k requires 0 <= k < |lines| => Classify(lines[k]))
  }
}

=== FILE: post_routes.dfy ===
/**
 The blog content routes: the stored posts with their comments, the listing
 with its category and search filters, lookup by slug, adding a comment (with
 optional authentication) and liking one. The JSON file the routes read and
 write is the `store` value passed in and returned; comment ids and
 timestamps come from the clock and are parameters.
 */
module PostRoutes {
  import opened JsValues
  import opened JsString
  import opened Seqs
  import opened Http
  import opened Bearer

  /** A comment; `likes` may be missing in hand-written data. */
  datatype Comment = Comment(id: int, name: string, text: string, time: string, likes: Option<int>)

  /** The fields of a stored post that these routes pass through untouched. */
  datatype PostDetails = PostDetails(
    content: string, author: string, date: string, readTime: string,
    tags: seq<string>, featured: bool, image: Option<string>)

  datatype Post = Post(
    slug: string, title: string, excerpt: string, category: string,
    details: PostDetails, comments: seq<Comment>)

  /** A listing entry: the post without its comments, with their number instead. */
  datatype Summary = Summary(
    slug: string, title: string, excerpt: string, category: string,
    details: PostDetails, commentCount: nat)

  /** The posts file after a request, and the reply sent. */
  datatype Change<+T> = Change(store: seq<Post>, reply: Reply<T>)

  function Summarize(p: Post): Summary {
    Summary(p.slug, p.title, p.excerpt, p.category, p.details, |p.comments|)
  }

  function SummarizeAll(posts: seq<Post>): (r: seq<Summary>)
    ensures |r| == |posts|
    ensures forall k :: 0 <= k < |r| ==> r[k] == Summarize(posts[k])
  {
    seq(|posts|, k requires 0 <= k < |posts| => Summarize(posts[k]))
  }

  lemma SummarizeAllAppend(a: seq<Post>, b: seq<Post>)
    ensures SummarizeAll(a + b) == SummarizeAll(a) + SummarizeAll(b)
  {
  }

  // ---------------------------------------------------------------- listing

  /** A `category` query restricts the listing unless it is missing, empty or "all". */
  predicate CategoryFilterOn(category: Option<string>) {
    Truthy(category) && category.value != "all"
  }

  function CategoryIs(category: string): Post -> bool {
    (p: Post) => p.category == category
  }

  function SearchHits(query: string): Post -> bool {
    (p: Post) => ContainsIgnoringCase(p.title, query) || ContainsIgnoringCase(p.excerpt, query)
  }

  /** Whether a post belongs in the listing for these query parameters. */
  predicate Listed(category: Option<string>, search: Option<string>, p: Post) {
    && (!CategoryFilterOn(category) || p.category == category.value)
    && (!Truthy(search) || ContainsIgnoringCase(p.title, search.value)
                        || ContainsIgnoringCase(p.excerpt, search.value))
  }

  /** The posts that survive the category filter and then the search filter. */
  function Selected(store: seq<Post>, category: Option<string>, search: Option<string>): seq<Post> {
    var byCategory := if CategoryFilterOn(category) then Filter(CategoryIs(category.value), store) else store;
    if Truthy(search) then Filter(SearchHits(search.value), byCategory) else byCategory
  }

  /** GET /api/posts?category=&search= */
  function ListPosts(store: seq<Post>, category: Option<string>, search: Option<string>): (r: seq<Summary>)
    ensures |r| <= |store|
    ensures !CategoryFilterOn(category) && !Truthy(search) ==> |r| == |store|
    ensures forall i :: 0 <= i < |store| && Listed(category, search, store[i]) ==> Summarize(store[i]) in r
    ensures forall k :: 0 <= k < |r| ==>
      exists p :: p in store && Listed(category, search, p) && r[k] == Summarize(p)
  {
    var chosen := Selected(store, category, search);
    SelectedMembers(store, category, search);
    var r := SummarizeAll(chosen);
    assert forall i :: 0 <= i < |store| && Listed(category, search, store[i]) ==>
      exists k :: 0 <= k < |chosen| && chosen[k] == store[i] && r[k] == Summarize(store[i]);
    assert forall k :: 0 <= k < |r| ==>
      chosen[k] in store && Listed(category, search, chosen[k]) && r[k] == Summarize(chosen[k]);
    r
  }

  /** With neither filter the listing is every post of the store, in store order. */
  lemma UnfilteredListingIsEveryPost(store: seq<Post>)
    ensures ListPosts(store, None, None) == SummarizeAll(store)
  {
    SelectedMembers(store, None, None);
  }

  /** The selected posts are exactly the store's listed posts. */
  lemma SelectedMembers(store: seq<Post>, category: Option<string>, search: Option<string>)
    ensures var chosen := Selected(store, category, search);
      && |chosen| <= |store|
      && (!CategoryFilterOn(category) && !Truthy(search) ==> chosen == store)
      && (forall i :: 0 <= i < |store| && Listed(category, search, store[i]) ==> store[i] in chosen)
      && (forall k :: 0 <= k < |chosen| ==> chosen[k] in store && Listed(category, search, chosen[k]))
  {
    var byCategory := if CategoryFilterOn(category) then Filter(CategoryIs(category.value), store) else store;
    assert forall i :: 0 <= i < |store| && Listed(category, search, store[i]) ==> store[i] in byCategory;
    assert forall k :: 0 <= k < |byCategory| ==> byCategory[k] in store && (!CategoryFilterOn(category) || byCategory[k].category == category.value);
  }

  lemma SelectedAppend(a: seq<Post>, b: seq<Post>, category: Option<string>, search: Option<string>)
    ensures Selected(a + b, category, search) == Selected(a, category, search) + Selected(b, category, search)
  {
    var byA := if CategoryFilterOn(category) then Filter(CategoryIs(category.value), a) else a;
    var byB := if CategoryFilterOn(category) then Filter(CategoryIs(category.value), b) else b;
    if CategoryFilterOn(category) {
      FilterAppend(CategoryIs(category.value), a, b);
    }
    if Truthy(search) {
      FilterAppend(SearchHits(search.value), byA, byB);
    }
  }

  /** Listing a concatenation lists each part in turn: the listing keeps the store's order. */
  lemma ListPostsAppend(a: seq<Post>, b: seq<Post>, category: Option<string>, search: Option<string>)
    ensures ListPosts(a + b, category, search) == ListPosts(a, category, search) + ListPosts(b, category, search)
  {
    SelectedAppend(a, b, category, search);
    SummarizeAllAppend(Selected(a, category, search), Selected(b, category, search));
  }

  // ---------------------------------------------------------------- lookup

  function SlugIs(slug: string): Post -> bool {
    (p: Post) => p.slug == slug
  }

  /** `posts.findIndex(p => p.slug === slug)`. */
  function SlugIndex(store: seq<Post>, slug: string): (i: int)
    ensures -1 <= i < |store|
    ensures i == -1 <==> forall j :: 0 <= j < |store| ==> store[j].slug != slug
    ensures 0 <= i ==> store[i].slug == slug && forall j :: 0 <= j < i ==> store[j].slug != slug
  {
    FirstIndex(SlugIs(slug), store)
  }

  /** GET /api/posts/:slug */
  function GetPost(store: seq<Post>, slug: string): (r: Reply<Post>)
    ensures r.Ok? <==> exists i :: 0 <= i < |store| && store[i].slug == slug
    ensures r.Ok? ==> r.status == 200 && r.body.slug == slug
    ensures r.Ok? ==>
      exists i :: 0 <= i < |store| && store[i] == r.body && forall j :: 0 <= j < i ==> store[j].slug != slug
    ensures r.Err? ==> r == Err(404, "Post not found.")
  {
    var i := SlugIndex(store, slug);
    if i == -1 then Err(404, "Post not found.") else Ok(200, store[i])
  }

  // ---------------------------------------------------------------- comments

  /** optionalAuth: the claims of a valid bearer token, or no user; it never rejects. */
  function OptionalAuth(header: Option<string>, verify: Verifier): (user: Option<Claims>)
    ensures user.Some? <==> WellFormed(header) && verify(TokenOf(header.value)).Some?
    ensures user.Some? ==> user == verify(header.value[7..])
  {
    if WellFormed(header) then verify(TokenOf(header.value)) else None
  }

  /** The comment text is present and not blank: `text && text.trim()`. */
  predicate HasText(text: Option<string>) {
    Truthy(text) && Trim(text.value) != ""
  }

  /** `after` is `before` with `c` appended to the comments of post `i`, nothing else changed. */
  predicate CommentAppended(before: seq<Post>, after: seq<Post>, i: int, c: Comment) {
    && 0 <= i < |before| && |after| == |before|
    && after[i].comments == before[i].comments + [c]
    && after[i] == before[i].(comments := after[i].comments)
    && forall j :: 0 <= j < |before| && j != i ==> after[j] == before[j]
  }

  /** POST /api/posts/:slug/comments, after optionalAuth has produced `user`. */
  function AddComment(
    store: seq<Post>, slug: string, text: Option<string>, bodyName: Option<string>,
    user: Option<Claims>, id: int, time: string): (r: Change<Comment>)
    ensures !HasText(text) ==> r == Change(store, Err(400, "Comment text is required."))
    ensures HasText(text) && (forall i :: 0 <= i < |store| ==> store[i].slug != slug) ==>
      r == Change(store, Err(404, "Post not found."))
    ensures r.reply.Ok? <==> HasText(text) && exists i :: 0 <= i < |store| && store[i].slug == slug
    ensures r.reply.Ok? ==>
      && r.reply.status == 201
      && r.reply.body.id == id && r.reply.body.time == time
      && r.reply.body.text == Trim(text.value) && r.reply.body.likes == Some(0)
      && CommentAppended(store, r.store, SlugIndex(store, slug), r.reply.body)
    ensures r.reply.Ok? && user.Some? ==> r.reply.body.name == user.value.name
    ensures r.reply.Ok? && user.None? && Truthy(bodyName) ==> r.reply.body.name == bodyName.value
    ensures r.reply.Ok? && user.None? && !Truthy(bodyName) ==> r.reply.body.name == "Anonymous"
  {
    if !HasText(text) then Change(store, Err(400, "Comment text is required."))
    else
      var i := SlugIndex(store, slug);
      if i == -1 then Change(store, Err(404, "Post not found."))
      else
        var name := if user.Some? then user.value.name else OrElse(bodyName, "Anonymous");
        var c := Comment(id, name, Trim(text.value), time, Some(0));
        var after := store[i := store[i].(comments := store[i].comments + [c])];
        Change(after, Ok(201, c))
  }

  /** The comment route as a whole: optionalAuth followed by the handler. */
  function CommentRequest(
    store: seq<Post>, slug: string, header: Option<string>, verify: Verifier,
    text: Option<string>, bodyName: Option<string>, id: int, time: string): (r: Change<Comment>)
    ensures r.reply.status == 201 || r.reply.status == 400 || r.reply.status == 404
    ensures OptionalAuth(header, verify).None? ==> r == AddComment(store, slug, text, bodyName, None, id, time)
    ensures r.reply.Ok? && OptionalAuth(header, verify).None? ==> r.reply.body.name == OrElse(bodyName, "Anonymous")
  {
    AddComment(store, slug, text, bodyName, OptionalAuth(header, verify), id, time)
  }

  /** A missing, malformed or rejected token changes only the name on the comment, never the outcome. */
  lemma CommentTokenNeverRejects(
    store: seq<Post>, slug: string, h1: Option<string>, v1: Verifier, h2: Option<string>, v2: Verifier,
    text: Option<string>, bodyName: Option<string>, id: int, time: string)
    ensures var r1 := CommentRequest(store, slug, h1, v1, text, bodyName, id, time);
            var r2 := CommentRequest(store, slug, h2, v2, text, bodyName, id, time);
            && r1.reply.status == r2.reply.status
            && (r1.reply.Err? ==> r1 == r2)
            && (r1.reply.Ok? ==> r1.reply.body.text == r2.reply.body.text && |r1.store| == |r2.store|)
  {
  }

  // ---------------------------------------------------------------- likes

  /** `comment.likes || 0` */
  function LikesOf(c: Comment): int {
    ValueOr(c.likes, 0)
  }

  function IdIs(id: int): Comment -> bool {
    (c: Comment) => c.id == id
  }

  /** `comments.find(c => c.id === id)`, as a position. */
  function CommentIndex(comments: seq<Comment>, id: int): (k: int)
    ensures -1 <= k < |comments|
    ensures k == -1 <==> forall j :: 0 <= j < |comments| ==> comments[j].id != id
    ensures 0 <= k ==> comments[k].id == id && forall j :: 0 <= j < k ==> comments[j].id != id
  {
    FirstIndex(IdIs(id), comments)
  }

  /** `after` is `before` with comment `k` of post `i` now holding `likes`, nothing else changed. */
  predicate LikesSet(before: seq<Post>, after: seq<Post>, i: int, k: int, likes: int) {
    && 0 <= i < |before| && |after| == |before|
    && 0 <= k < |before[i].comments| && |after[i].comments| == |before[i].comments|
    && after[i] == before[i].(comments := after[i].comments)
    && after[i].comments[k] == before[i].comments[k].(likes := Some(likes))
    && (forall m :: 0 <= m < |before[i].comments| && m != k ==> after[i].comments[m] == before[i].comments[m])
    && forall j :: 0 <= j < |before| && j != i ==> after[j] == before[j]
  }

  /** POST /api/posts/:slug/comments/:commentId/like */
  function LikeComment(store: seq<Post>, slug: string, commentId: int): (r: Change<int>)
    ensures SlugIndex(store, slug) == -1 ==> r == Change(store, Err(404, "Post not found."))
    ensures var i := SlugIndex(store, slug);
      0 <= i && CommentIndex(store[i].comments, commentId) == -1 ==>
        r == Change(store, Err(404, "Comment not found."))
    ensures var i := SlugIndex(store, slug);
      r.reply.Ok? <==> 0 <= i && 0 <= CommentIndex(store[i].comments, commentId)
    ensures r.reply.Ok? ==>
      var i := SlugIndex(store, slug);
      && 0 <= i && 0 <= CommentIndex(store[i].comments, commentId)
      && var k := CommentIndex(store[i].comments, commentId);
      && r.reply.status == 200
      && r.reply.body == LikesOf(store[i].comments[k]) + 1
      && LikesSet(store, r.store, i, k, r.reply.body)
  {
    var i := SlugIndex(store, slug);
    if i == -1 then Change(store, Err(404, "Post not found."))
    else
      var k := CommentIndex(store[i].comments, commentId);
      if k == -1 then Change(store, Err(404, "Comment not found."))
      else
        var likes := LikesOf(store[i].comments[k]) + 1;
        var comments := store[i].comments[k := store[i].comments[k].(likes := Some(likes))];
        Change(store[i := store[i].(comments := comments)], Ok(200, likes))
  }

  /** Liking changes no slug and no comment id, so lookups find the same positions afterwards. */
  lemma LikeKeepsPositions(store: seq<Post>, slug: string, commentId: int)
    requires LikeComment(store, slug, commentId).reply.Ok?
    ensures var after := LikeComment(store, slug, commentId).store;
      && SlugIndex(after, slug) == SlugIndex(store, slug)
      && var i := SlugIndex(store, slug);
         CommentIndex(after[i].comments, commentId) == CommentIndex(store[i].comments, commentId)
  {
    var after := LikeComment(store, slug, commentId).store;
    var i := SlugIndex(store, slug);
    var k := CommentIndex(store[i].comments, commentId);
    assert forall j :: 0 <= j < |store| ==> after[j].slug == store[j].slug;
    assert forall m :: 0 <= m < |store[i].comments| ==> after[i].comments[m].id == store[i].comments[m].id;
    var si := SlugIndex(after, slug);
    assert si == i;
    var ck := CommentIndex(after[i].comments, commentId);
    assert ck == k;
  }

  /** Two likes in a row raise the count by exactly two: no like is lost. */
  lemma LikeTwiceAddsTwo(store: seq<Post>, slug: string, commentId: int)
    requires LikeComment(store, slug, commentId).reply.Ok?
    ensures var first := LikeComment(store, slug, commentId);
            var second := LikeComment(first.store, slug, commentId);
            second.reply.Ok? && second.reply.body == first.reply.body + 1
  {
    LikeKeepsPositions(store, slug, commentId);
  }
}

=== FILE: seqs.dfy ===
/**
 The array methods the blog code uses on its lists: `filter`, `findIndex`
 (and `find` through it) and a count of the elements meeting a test.
 */
module Seqs {

  /** `s.filter(p)`: the elements of `s` meeting `p`, in their original order. */
  function Filter<T>(p: T -> bool, s: seq<T>): (r: seq<T>)
    ensures |r| <= |s|
    ensures forall i :: 0 <= i < |r| ==> r[i] in s && p(r[i])
    ensures forall i :: 0 <= i < |s| && p(s[i]) ==> s[i] in r
    decreases |s|
  {
    if |s| == 0 then []
    else
      var rest := Filter(p, s[1..]);
      assert forall i :: 1 <= i < |s| ==> s[i] == s[1..][i - 1];
      if p(s[0]) then [s[0]] + rest else rest
  }

  /** Filtering distributes over concatenation, so `Filter` keeps relative order. */
  lemma {:induction false} FilterAppend<T>(p: T -> bool, a: seq<T>, b: seq<T>)
    ensures Filter(p, a + b) == Filter(p, a) + Filter(p, b)
    decreases |a|
  {
    if |a| > 0 {
      assert (a + b)[1..] == a[1..] + b;
      FilterAppend(p, a[1..], b);
    } else {
      assert a + b == b;
    }
  }

  /** A filter every element passes keeps the whole sequence. */
  lemma {:induction false} FilterAll<T>(p: T -> bool, s: seq<T>)
    requires forall i :: 0 <= i < |s| ==> p(s[i])
    ensures Filter(p, s) == s
    decreases |s|
  {
    if |s| > 0 {
      FilterAll(p, s[1..]);
    }
  }

  /** The negation of a test. */
  function Not<T>(p: T -> bool): T -> bool {
    x => !p(x)
  }

  /** A test and its negation split a sequence between them. */
  lemma {:induction false} FilterPartition<T>(p: T -> bool, s: seq<T>)
    ensures |Filter(p, s)| + |Filter(Not(p), s)| == |s|
    decreases |s|
  {
    if |s| > 0 {
      FilterPartition(p, s[1..]);
    }
  }

  /** `s.findIndex(p)`: the first position whose element meets `p`, or -1. */
  function FirstIndex<T>(p: T -> bool, s: seq<T>): (i: int)
    ensures -1 <= i < |s|
    ensures i == -1 <==> forall j :: 0 <= j < |s| ==> !p(s[j])
    ensures 0 <= i ==> p(s[i]) && forall j :: 0 <= j < i ==> !p(s[j])
    decreases |s|
  {
    if |s| == 0 then -1
    else if p(s[0]) then 0
    else
      var j := FirstIndex(p, s[1..]);
      if j == -1 then -1 else j + 1
  }

  /** The number of elements of `s` that meet `p`. */
  function Count<T>(p: T -> bool, s: seq<T>): (n: nat)
    ensures n == |Filter(p, s)|
    decreases |s|
  {
    if |s| == 0 then 0 else (if p(s[0]) then 1 else 0) + Count(p, s[1..])
  }
}

=== FILE: signup_page.dfy ===
/**
 The sign-up page: a three-field form, its change handler, and its submit
 handler, which checks the form before calling /register. The checks mirror
 the server's: a form that passes them is never refused by the server with a
 400, and a form that fails them would have been.
 */
module SignUpPage {
  import opened JsValues
  import opened JsString
  import opened FormErrors
  import AuthRoutes
  import Http
  import Bearer

  datatype Form = Form(name: string, email: string, password: string)

  /** The form's input names. */
  datatype Field = Name | Email | Password

  /** The page's form and the error line under it. */
  datatype Page = Page(form: Form, error: string)

  function Get(f: Form, field: Field): string {
    match field
    case Name => f.name
    case Email => f.email
    case Password => f.password
  }

  /** handleChange: the input named `field` now holds `value`, and the error is cleared. */
  function HandleChange(p: Page, field: Field, value: string): (r: Page)
    ensures r.error == ""
    ensures Get(r.form, field) == value
    ensures forall other :: other != field ==> Get(r.form, other) == Get(p.form, other)
  {
    var f := match field
      case Name => p.form.(name := value)
      case Email => p.form.(email := value)
      case Password => p.form.(password := value);
    Page(f, "")
  }

  predicate Filled(f: Form) {
    f.name != "" && f.email != "" && f.password != ""
  }

  /** The page's own checks: `None` when the form may be sent, else the message shown. */
  function Check(f: Form): (problem: Option<string>)
    ensures !Filled(f) ==> problem == Some("All fields are required.")
    ensures Filled(f) && Utf16Length(f.password) < AuthRoutes.MinPasswordLength ==>
      problem == Some("Password must be at least 6 characters.")
    ensures problem.None? <==> Filled(f) && Utf16Length(f.password) >= AuthRoutes.MinPasswordLength
  {
    if !Filled(f) then Some("All fields are required.")
    else if Utf16Length(f.password) < AuthRoutes.MinPasswordLength then Some("Password must be at least 6 characters.")
    else None
  }

  /** handleSubmit, with `answer` standing for what the register call would answer. */
  function HandleSubmit(f: Form, answer: Answer): (s: Submission)
    ensures s.NotSent? <==> !Filled(f) || Utf16Length(f.password) < AuthRoutes.MinPasswordLength
    ensures !Filled(f) ==> s == NotSent("All fields are required.")
    ensures Filled(f) && Utf16Length(f.password) < AuthRoutes.MinPasswordLength ==>
      s == NotSent("Password must be at least 6 characters.")
    ensures s.CallFailed? ==> answer.Refused? && s.error == ErrorText(answer.err, "Registration failed")
    ensures s.SignedIn? ==> answer.Accepted? && s.session == answer.session
  {
    match Check(f)
    case Some(problem) => NotSent(problem)
    case None => AfterCall(answer, "Registration failed")
  }

  /** A form the page sends is never refused by /register with a 400: the server either
      creates the account or reports the email as taken. A form the page holds back would
      have drawn a 400, and for a short password the very same message. */
  lemma ChecksMatchServer(
    f: Form, users: seq<AuthRoutes.User>, hash: AuthRoutes.Hasher, sign: Bearer.Signer, id: int, now: string)
    ensures var reply := AuthRoutes.Register(users, Some(f.name), Some(f.email), Some(f.password), hash, sign, id, now).reply;
      && (Check(f).None? ==> reply.Ok? || reply == Http.Err(409, "An account with this email already exists."))
      && (Check(f).Some? ==> reply.Err? && reply.status == 400)
      && (Filled(f) && Check(f).Some? ==> reply.error == Check(f).value)
  {
  }
}

=== FILE: testimonials.dfy ===
/**
 The testimonials carousel: the previous/next buttons step the current index
 round the list, the dots jump straight to an entry, and the desktop view
 shows a window of three consecutive entries starting at the current one.
 The animation direction is 1 for a step forward and -1 for a step back.
 The five-second auto-rotate timer only calls the next handler, so its ticks are
 steps forward, as `Forward` counts them; the timing itself is not modelled.
 */
module Testimonials {

  /** JavaScript's `%` on integers: the remainder takes the sign of the dividend. */
  function JsRem(a: int, b: int): (r: int)
    requires b > 0
    ensures a >= 0 ==> 0 <= r < b && r == a % b
    ensures a < 0 ==> -b < r <= 0
  {
    if a >= 0 then a % b else -((-a) % b)
  }

  /** The component's state: `currentIndex` and `direction`. */
  datatype Carousel = Carousel(index: int, direction: int)

  const Initial: Carousel := Carousel(0, 0)

  predicate InRange(c: Carousel, n: int) {
    0 <= c.index < n
  }

  /** handleNext, over `n` testimonials. */
  function Next(c: Carousel, n: int): (r: Carousel)
    requires n > 0
    ensures r.direction == 1
    ensures InRange(c, n) ==> InRange(r, n) && r.index == (if c.index == n - 1 then 0 else c.index + 1)
  {
    Carousel(JsRem(c.index + 1, n), 1)
  }

  /** handlePrev, over `n` testimonials. */
  function Prev(c: Carousel, n: int): (r: Carousel)
    requires n > 0
    ensures r.direction == -1
    ensures InRange(c, n) ==> InRange(r, n) && r.index == (if c.index == 0 then n - 1 else c.index - 1)
  {
    Carousel(JsRem(c.index - 1 + n, n), -1)
  }

  /** A dot click: jump to entry `dot`, animating forward exactly when the dot is further on. */
  function DotClick(c: Carousel, dot: int): (r: Carousel)
    ensures r.index == dot
    ensures r.direction == 1 <==> dot > c.index
    ensures r.direction == -1 <==> dot <= c.index
  {
    Carousel(dot, if dot > c.index then 1 else -1)
  }

  /** Prev undoes next and next undoes prev, as far as the shown entry goes. */
  lemma StepsUndo(c: Carousel, n: int)
    requires n > 0 && InRange(c, n)
    ensures Prev(Next(c, n), n).index == c.index
    ensures Next(Prev(c, n), n).index == c.index
  {
  }

  /** Clicking the neighbouring dot is the same as the arrow button, away from the wrap-around. */
  lemma NeighbourDotIsArrow(c: Carousel, n: int)
    requires n > 0 && InRange(c, n)
    ensures c.index + 1 < n ==> DotClick(c, c.index + 1) == Next(c, n)
    ensures 0 < c.index ==> DotClick(c, c.index - 1) == Prev(c, n)
  {
  }

  /** `k` presses of the next button (or ticks of the auto-rotate timer). */
  function Forward(c: Carousel, n: int, k: nat): (r: Carousel)
    requires n > 0
    ensures InRange(c, n) ==> InRange(r, n)
    ensures k > 0 ==> r.direction == 1
    decreases k
  {
    if k == 0 then c else Next(Forward(c, n, k - 1), n)
  }

  /** Position `k` of the three-card window starting at `current`, among `n` entries. */
  function Slot(current: int, n: int, k: int): int
    requires n > 0
  {
    (current + k) % n
  }

  /** Reduction modulo `n` of a number below `2 * n` subtracts `n` at most once. */
  lemma ModBelowTwice(x: int, n: int)
    requires n > 0 && 0 <= x < 2 * n
    ensures x % n == (if x < n then x else x - n)
  {
    var q, r := x / n, x % n;
    assert x == q * n + r;
    if x < n {
      assert q != 1;
    } else {
      assert q != 0;
    }
  }

  /** Up to a full turn, `k` steps forward from an in-range index advance it by `k`, wrapping once. */
  lemma {:induction false} ForwardIndex(c: Carousel, n: int, k: nat)
    requires n > 0 && InRange(c, n) && k <= n
    ensures Forward(c, n, k).index == (if c.index + k < n then c.index + k else c.index + k - n)
    decreases k
  {
    if k > 0 {
      ForwardIndex(c, n, k - 1);
    }
  }

  /** Up to a full turn, `k` steps forward land on window slot `k`. */
  lemma ForwardIsSlot(c: Carousel, n: int, k: nat)
    requires n > 0 && InRange(c, n) && k <= n
    ensures Forward(c, n, k).index == Slot(c.index, n, k)
  {
    ForwardIndex(c, n, k);
    ModBelowTwice(c.index + k, n);
  }

  /** `n` steps forward return to the starting entry. */
  lemma NextCycles(c: Carousel, n: int)
    requires n > 0 && InRange(c, n)
    ensures Forward(c, n, n).index == c.index
  {
    ForwardIndex(c, n, n);
  }

  /** getVisibleTestimonials: the current entry and the two after it, wrapping round. */
  method VisibleTestimonials<T>(ts: seq<T>, current: int) returns (visible: seq<T>)
    requires |ts| > 0 && current >= 0
    ensures |visible| == 3
    ensures forall k :: 0 <= k < 3 ==> visible[k] == ts[Slot(current, |ts|, k)]
  {
    visible := [];
    var i := 0;
    while i < 3
      invariant 0 <= i <= 3 && |visible| == i
      invariant forall k :: 0 <= k < i ==> visible[k] == ts[Slot(current, |ts|, k)]
    {
      visible := visible + [ts[JsRem(current + i, |ts|)]];
      i := i + 1;
    }
  }

  /** With at least three testimonials the window shows three different entries,
      and a step forward slides it along by one. */
  lemma WindowSlides(c: Carousel, n: int)
    requires n >= 3 && InRange(c, n)
    ensures forall k, m :: 0 <= k < m < 3 ==> Slot(c.index, n, k) != Slot(c.index, n, m)
    ensures forall k :: 0 <= k < 2 ==> Slot(Next(c, n).index, n, k) == Slot(c.index, n, k + 1)
  {
    forall k | 0 <= k < 3
      ensures Slot(c.index, n, k) == (if c.index + k < n then c.index + k else c.index + k - n)
    {
      ModBelowTwice(c.index + k, n);
    }
    forall k | 0 <= k < 2
      ensures Slot(Next(c, n).index, n, k) == Slot(c.index, n, k + 1)
    {
      ModBelowTwice(Next(c, n).index + k, n);
    }
  }
}
